=== FILE: README.md ===
# idb-kv batching core, modelled in Dafny

`idb-kv` is a key-value store in front of IndexedDB. Calls of `get`, `set`
and `delete` are queued as actions. A debounced commit then applies the whole
queue in one readwrite transaction. This project models the `Idbkv` class of
`index.js` as a sequential state machine and proves properties of it:
batching, commit sharing, read-your-own-write, outcome propagation, poisoning
after a failed open or a destroy, and destroy.

IndexedDB itself is an abstract map, `Store.disk`, plus outcome events.
Timers, promises and IndexedDB callbacks become explicit events:

| event | source |
|---|---|
| `Call(GetReq / SetReq / DeleteReq)` | `get`, `set`, `delete` |
| `TimerFired` | the debounce expired and the commit awaits `this.db` |
| `TxSettled(Complete / Abort(cause, served))` | `oncomplete` / `onabort` of the oldest issued transaction |
| `DbOpened`, `DbOpenFailed(cause)` | the open request of the constructor; whatever awaited the opening database resumes |
| `DestroyCalled` | `destroy()` |
| `DeleteSucceeded`, `DeleteErrored(cause)` | the `deleteDatabase` request |

Files:

- `types.dfy` (module `KvTypes`): errors with their messages, actions, caller replies.
- `batch.dfy` (module `Batch`): the batch application as a left fold over the
  store's contents (`Fold`). It has a reference meaning, `ValueAfter`, which
  searches backward for the last write of a key (`LastWrite`). The lemmas
  connect the two.
- `idbkv.dfy` (module `Idbkv`): the store record, one step function per
  event, the caller-visible state of each promise (`Observe`), and the
  invariant `Valid`.
- `proofs.dfy` (module `IdbkvProofs`): every event keeps `Valid`. It also
  proves commit sharing within a burst, read-your-own-write across a full
  commit cycle, the aborted-transaction path, the permanent poisoning after
  the database promise rejects, and destroy.

Behaviour modelled as the code does it:

- The queue is taken when the commit runs (index.js:109), not when it starts.
  Calls made during the debounce or while the database is opening join the batch.
- The queue and the commit pointer are reset before the transaction's
  outcome is known (index.js:129-130). A failed transaction therefore does
  not stop the next call from starting a fresh commit. Only one commit can
  be debouncing or waiting at a time, but issued transactions can overlap.
  They are kept oldest-first in `inflight`, because IndexedDB runs
  overlapping readwrite transactions in creation order.
- When `this.db` has rejected, the commit throws at index.js:104, before the
  reset. The rejected commit stays the pending commit forever. Every later
  call joins it and rejects with the identical error. The queue is never
  cleared, so it keeps growing.
- A commit whose debounce expires while the database is opening, and a
  `destroy()` called meanwhile, both await the same opening promise
  (index.js:104 and index.js:73). They are kept in `waiters` and resume in
  the order they began waiting. A destroy that resumes first closes the
  connection, so the commit's `db.transaction` (index.js:106) throws an
  `InvalidStateError` before the reset. The store is then poisoned with that
  error (`ClosedConnection`), not with the destroyed error. A commit that
  resumes first issues its batch, and the destroy's deletion waits for it.
- There is no `close()`. A get of a missing key resolves with `undefined`
  (`None` here); it does not fail.

## Model

| member | source | states |
|---|---|---|
| Batch.Fold | index.js:109-126 | applying a batch in queue order leaves every get of the batch with a read: the read identities are exactly the batch's get identities |
| Batch.LastWrite | test.js:59-74 | a reference definition with no counterpart in the code, for the last-write-wins behaviour the test expects: `None` exactly when no action writes the key; otherwise a write of it with no later write |
| Batch.FoldContents | index.js:117-124 | after the batch every key holds the value of its last write (the set value, or absent after a delete), or its earlier value when the batch never writes it |
| Batch.UntouchedKeyUnchanged | index.js:109-126 | a key no action of the batch writes keeps its value |
| Batch.LastWriteWins | test.js:59-74 | the last set or delete of a key in a batch decides the key's value afterwards |
| Batch.GetSeesEarlierActions | index.js:111-115 | a get in a batch reads its key's value after all earlier actions of the same batch |
| Batch.OrderPreservedExample | test.js:76-92 | set, get, overwrite, get, delete, get in one batch read "value", "overwrite" and nothing |
| Idbkv.Init | index.js:5-34 | a new instance is opening, has an empty queue, no pending commit, no transaction and nothing waiting, and satisfies the invariant |
| IdbkvProofs.GetOrStartCommitShares | index.js:89-96 | the pending commit is handed out when there is one, otherwise a new debouncing commit no caller held before; a second call hands out the same commit and changes nothing; the handed-out commit is the only one not yet issued |
| Idbkv.GetCall | index.js:36-51 | `get` appends exactly one get action, with a fresh identity, to the end of the queue, starts a commit only when none is pending, and changes nothing else; the caller holds the joined commit and its own result |
| Idbkv.SetCall | index.js:53-61 | `set` appends exactly one set action to the end of the queue, starts a commit only when none is pending, and changes nothing else; the caller holds the joined commit |
| Idbkv.DeleteCall | index.js:63-70 | `delete` appends exactly one delete action to the end of the queue, starts a commit only when none is pending, and changes nothing else; the caller holds the joined commit |
| Idbkv.Issue | index.js:106-130 | issuing moves the whole queue into one new transaction and resets the queue and pointer; no outstanding action is lost, duplicated or reordered |
| Idbkv.Commit | index.js:99-130 | a fired commit never loses, duplicates or reorders an outstanding action and never touches the database contents or settled results. While the database opens it joins the waiters, last. On an open database it issues the whole current queue and resets the queue and pointer. On a rejected database promise its callers see that error and nothing is reset |
| Idbkv.Settle | index.js:132-143 | completion applies the oldest transaction's batch, resolves its gets with what they read, and resolves its commit. Abort keeps the database, resolves only the gets served before the abort, rejects the rest and rejects the commit |
| Idbkv.OpenSucceeded | index.js:10-13 | a successful open leaves nothing waiting, loses no outstanding action and settles no get; the database ends destroyed exactly when a destroy was waiting. The waiters resume in order through `Resume` and `ResumeAll`: a destroy continues past its await by closing and deleting (`CloseAndDelete`, index.js:73-81), a commit past index.js:104-106, issuing its batch or throwing on the closed connection |
| Idbkv.OpenFailedWith | index.js:14-16 | a failed open rejects the database promise once, with an error naming the database, and leaves nothing waiting: every waiter resumes through `ResumeAll`, a commit rejecting with that error and a destroy doing nothing |
| Idbkv.Destroy | index.js:72-87 | `destroy()` settles no caller's promise and cancels no queued action. It waits behind everything already waiting on an opening database; on an open one it destroys the store and requests deletion; on a rejected database promise it rejects with that error |
| Idbkv.FinishDelete | index.js:83-86 | the deletion settles once, only after every issued transaction has, with the promise of `destroy()` resolving or rejecting with the deletion's error; success erases the database; no caller's promise changes |
| Idbkv.DestroyReply | index.js:83-86 | the promise of `destroy()` settles exactly when the deletion has, resolving with nothing or rejecting with the deletion's error |
| Idbkv.Observe | index.js:46-50 | a set or delete follows its commit promise (index.js:60, 69); a get gets its own read, or the commit's rejection when that comes first; a resolved commit never resolves a get |
| IdbkvProofs.StepPreservesValid | index.js:89-130 | every event keeps the invariant: an empty pointer means an empty queue, at most one commit is not yet issued and it is the pending one, a pending rejected commit carries the database's error or the closed-connection error, only the pending commit waits and only on an opening database, get identities stay unique and unsettled while outstanding |
| IdbkvProofs.RunPreservesValid | index.js:89-130 | every state reachable from a valid state is valid |
| IdbkvProofs.CallAppendsOne | index.js:36-70 | each call appends exactly one action, matching the request, and leaves earlier queue entries unchanged |
| IdbkvProofs.BurstAppendsInOrder | index.js:36-70 | a burst of calls appends its actions to the queue in call order and leaves the database, its contents, the issued transactions, the settled results and the waiters alone |
| IdbkvProofs.BurstSharesCommit | index.js:90-96 | every call of a burst joins the same commit (the pending one, or the one the burst's first call starts), and the queue gains the burst's actions in call order |
| IdbkvProofs.WaitingCommitCollectsLaterCalls | index.js:101-109 | a call made while the commit awaits the opening database joins that commit; once open, the commit issues it in its batch, unless a destroy was already waiting, in which case the call rejects with the closed-connection error |
| IdbkvProofs.OpenRunsWaitersInOrder | index.js:101-107 | when the open succeeds, the waiting commit issues the whole queue if no destroy waited before it; otherwise the destroy closes the connection first, and the commit and every queued call reject with the closed-connection error, poisoning the store |
| IdbkvProofs.FailedOpenRejectsWaitingCommit | index.js:101-104 | when the open fails, the waiting commit rejects with the open error and stays pending, and every queued get, set and delete rejects with that error |
| IdbkvProofs.DestroyBeforeCommitPoisons | index.js:72-76 | `set`, `destroy()` and the debounce expiring, all before the open succeeds: the set and every later call reject with the closed-connection error, not the destroyed error |
| IdbkvProofs.CommitBeforeDestroyIssues | index.js:104-106 | `set`, the debounce expiring and then `destroy()`, all before the open succeeds: the batch is issued, the set resolves when it completes, and the deletion then erases the database |
| IdbkvProofs.CompleteCycle | index.js:104-133 | a completed cycle leaves the store idle, resolves the commit, and resolves each get with what the fold read for it |
| IdbkvProofs.ObserveAfterCycle | index.js:111-115 | on an open store with no transaction in flight, once a cycle has completed, the caller of a queued get sees its key's value after all earlier actions of the batch, and the caller of a set or delete sees a resolution |
| IdbkvProofs.BatchReadsOwnWrites | index.js:109-126 | on an open store with no transaction in flight, after a burst, its commit and its completed transaction, each get resolves with the value after all earlier calls of the burst. Each set and delete resolves, and the database holds each key's last write |
| IdbkvProofs.IssuedBatchReadsOwnWrites | index.js:106-133 | for any issued batch, however its commit got the connection and with any transactions issued before it: when it completes as the oldest, each get resolves with its key's value after the earlier actions of the batch over the database as the earlier transactions left it, each set and delete resolves, and every key holds the batch's last write |
| IdbkvProofs.FreshStoreReadsOwnWrites | index.js:101-106 | a burst on a new instance, whose commit waits for the database to open: once open and completed, each get resolves with the value after all earlier calls of the burst, each set and delete resolves, and the database holds each key's last write |
| IdbkvProofs.AbortThenFreshCommit | index.js:128-143 | an aborted transaction rejects its commit with the transaction's error and leaves the database unchanged, yet the next call starts a fresh commit |
| IdbkvProofs.FailedCommitRejectsQueued | index.js:46-48 | a commit that meets a rejected database promise applies nothing and stays pending, and every queued call, gets included, rejects with that error |
| IdbkvProofs.PoisonIsPermanent | index.js:91-95 | after such a rejection the rejected commit stays the pending commit through any sequence of events |
| IdbkvProofs.PoisonedRejectsCall | index.js:91-95 | on a poisoned store every call rejects at once with the cached error and its action stays queued |
| IdbkvProofs.PoisonedForever | test.js:213-231 | after any events, a call on a poisoned store rejects with the identical cached error |
| IdbkvProofs.LaterCallRejects | test.js:155-164 | once the database promise has rejected, each new call rejects with that error as soon as its commit fires, or with the closed-connection error a pending commit already holds |
| IdbkvProofs.DbStateIsFinal | index.js:80-81 | a failed or destroyed database state never changes again |
| IdbkvProofs.DestroyThenFreshStore | test.js:118-133 | destroy then successful deletion erases the contents, and a new instance under the same name reads nothing for any key |
| IdbkvProofs.ReplyIsFinal | index.js:132-143 | every promise settles at most once: through any events, a commit promise that has resolved or rejected keeps that outcome, a get that has its result keeps it, and so does the promise of a set or delete and of a get with its result |
| IdbkvProofs.RaceRejectionIsFinal | index.js:46-50 | a queued call whose commit has rejected is rejected, a get through its race, and stays rejected with the same error through any events: the queued action never leaves the queue and the get never gains a result |
| IdbkvProofs.DeletionIsFinal | index.js:83-86 | once the deletion has settled, the promise of `destroy()` keeps its outcome through any events, and an erased database stays empty |

## Left out

- IndexedDB internals (`indexedDB.open`, `onupgradeneeded`, `transaction`, `objectStore`, `deleteDatabase`): an abstract map plus outcome events. Atomicity of an aborted transaction is assumed: the database is left unchanged.
- The debounce timer and `batchInterval`: replaced by the `TimerFired` event.
- Promise mechanics beyond their outcomes: microtask interleaving and the `Promise.race` implementation. Everything that awaits the opening database resumes within the `DbOpened` or `DbOpenFailed` event.
- Structured cloning: values are opaque. A `put` that throws synchronously on an uncloneable value (which would leave the queue and pointer un-reset) cannot happen in the model.
- Key validity: keys are opaque and every key is valid. In IndexedDB, `store.get`, `store.put` and `store.delete` throw a `DataError` for a value that is not a valid key (`get(undefined)`, say). That throw happens inside the loop at index.js:109-126, before the reset at index.js:129-130, so such a call would poison the store with `DataError` while the requests issued before it still commit. The model does not have this path.
- The moment a get settles: in the code a get resolves as soon as its own request succeeds (index.js:113), before the transaction's `oncomplete`. In the model the gets of a batch settle together with their transaction, in `TxSettled`; only the `served` count of an abort records which requests had succeeded.
- The error object a get sees when its request fails inside an aborted transaction: the model rejects it with the transaction's error.
- The `onerror` handler with a null `transaction.error` (index.js:137-142): an abort is the only failure outcome.
- `deleteDatabase` blocked by other open connections: other instances are not modelled.
- Cross-instance isolation: instances are independent values, so the property is trivial.
- The text of the closed-connection error: browsers word the `InvalidStateError` message differently, so `Message(ClosedConnection)` is the exception's name.
- The type declarations of `index.d.ts` and the test harness of `test.js`, including its patching of `indexedDB.open`.
- Destroy: the promise of a `destroy()` call that waited on the opening database is not tracked per call. It rejects with the open error after a failed open; after a successful one it follows the deletion, which `DestroyReply` gives. A second `destroy()` that resumes with the same connection issues a second `deleteDatabase` request in the code; the model merges it into the first.

=== FILE: batch.dfy ===
/** Application of one batch of queued actions to the object store, inside a
    single readwrite transaction. Requests issued in one transaction observe
    each other in issue order, so the batch is a left fold of the queue over
    the store's contents: each `Get` reads the value left by every earlier
    action of the same batch. */
module Batch {
  import opened KvTypes

  /** The value a key holds in a map, `None` when it is absent. */
  function Lookup<K(==), V>(m: map<K, V>, k: K): Option<V>
  {
    if k in m then Some(m[k]) else None
  }

  /** `a` is a write (a set or a delete) of key `k`. */
  predicate Writes<K(==), V>(a: Action<K, V>, k: K)
  {
    !a.Get? && a.key == k
  }

  /** The value a write leaves behind: the new value for a set, absence for a delete. */
  function Written<K(==), V>(a: Action<K, V>): Option<V>
    requires !a.Get?
  {
    if a.Set? then Some(a.value) else None
  }

  /** The promise identities of the gets in a batch. */
  function GetIds<K(==), V>(b: seq<Action<K, V>>): set<nat>
  {
    set i | 0 <= i < |b| && b[i].Get? :: b[i].id
  }

  /** No two gets of a batch share a promise identity. */
  ghost predicate UniqueGetIds<K, V>(b: seq<Action<K, V>>)
  {
    forall i, j | 0 <= i < j < |b| && b[i].Get? && b[j].Get? :: b[i].id != b[j].id
  }

  /** The state of the transaction while the batch is issued: the store's
      contents as the next request will see them, and what each get read. */
  datatype Applied<K, V> = Applied(contents: map<K, V>, results: map<nat, Option<V>>)

  /** Issue one action: a get reads the current value, a set overwrites, a
      delete removes the key. */
  function Perform<K(==), V>(acc: Applied<K, V>, a: Action<K, V>): Applied<K, V>
  {
    match a
    case Get(id, k) => acc.(results := acc.results[id := Lookup(acc.contents, k)])
    case Set(k, v) => acc.(contents := acc.contents[k := v])
    case Delete(k) => acc.(contents := acc.contents - {k})
  }

  /** The left fold of the batch `b`, in queue order, over the contents `m`.
      Every get of the batch has read something. */
  function Fold<K(==), V>(m: map<K, V>, b: seq<Action<K, V>>): (r: Applied<K, V>)
    ensures r.results.Keys == GetIds(b)
    decreases |b|
  {
    if b == [] then Applied(m, map[])
    else
      var init := b[..|b| - 1];
      var last := b[|b| - 1];
      GetIdsSnoc(init, last);
      assert b == init + [last];
      Perform(Fold(m, init), last)
  }

  /** Appending an action adds its identity, if it is a get, to the batch's get identities. */
  lemma GetIdsSnoc<K, V>(b: seq<Action<K, V>>, a: Action<K, V>)
    ensures GetIds(b + [a]) == GetIds(b) + (if a.Get? then {a.id} else {})
  {
    var c := b + [a];
    assert forall i | 0 <= i < |b| :: c[i] == b[i];
    assert c[|b|] == a;
  }

  /** The position of the last write of `k` in `b`, searched from the end:
      `None` exactly when `b` never writes `k`. */
  function LastWrite<K(==), V>(b: seq<Action<K, V>>, k: K): (r: Option<nat>)
    ensures r.None? <==> forall j | 0 <= j < |b| :: !Writes(b[j], k)
    ensures r.Some? ==> r.value < |b| && Writes(b[r.value], k)
    ensures r.Some? ==> forall j | r.value < j < |b| :: !Writes(b[j], k)
    decreases |b|
  {
    if b == [] then None
    else if Writes(b[|b| - 1], k) then Some(|b| - 1)
    else LastWrite(b[..|b| - 1], k)
  }

  /** Reference meaning of a batch for one key: the value of the last write
      of `k` in `b`, or the value `k` held before the batch if `b` never writes it. */
  function ValueAfter<K(==), V>(m: map<K, V>, b: seq<Action<K, V>>, k: K): Option<V>
  {
    match LastWrite(b, k)
    case None => Lookup(m, k)
    case Some(j) => Written(b[j])
  }

  /** Last write wins, a delete removes the key, and a key the batch never
      writes keeps the value it had: the fold agrees with the reference. */
  lemma {:induction false} FoldContents<K, V>(m: map<K, V>, b: seq<Action<K, V>>, k: K)
    ensures Lookup(Fold(m, b).contents, k) == ValueAfter(m, b, k)
    decreases |b|
  {
    if b != [] {
      FoldContents(m, b[..|b| - 1], k);
    }
  }

  /** A key no action of the batch writes is left as it was. */
  lemma {:induction false} UntouchedKeyUnchanged<K, V>(m: map<K, V>, b: seq<Action<K, V>>, k: K)
    requires forall j | 0 <= j < |b| :: !Writes(b[j], k)
    ensures Lookup(Fold(m, b).contents, k) == Lookup(m, k)
  {
    FoldContents(m, b, k);
  }

  /** After the batch, a key holds the value of the last action that wrote
      it: `Some(v)` for a final set, `None` for a final delete. */
  lemma {:induction false} LastWriteWins<K, V>(m: map<K, V>, b: seq<Action<K, V>>, k: K, j: nat)
    requires j < |b| && Writes(b[j], k)
    requires forall i | j < i < |b| :: !Writes(b[i], k)
    ensures Lookup(Fold(m, b).contents, k) == Written(b[j])
  {
    FoldContents(m, b, k);
  }

  /** Read-your-own-write: a get of the batch reads the value its key holds
      after every earlier action of the same batch has been applied. */
  lemma {:induction false} GetSeesEarlierActions<K, V>(m: map<K, V>, b: seq<Action<K, V>>, i: nat)
    requires UniqueGetIds(b)
    requires i < |b| && b[i].Get?
    ensures b[i].id in Fold(m, b).results
    ensures Fold(m, b).results[b[i].id] == ValueAfter(m, b[..i], b[i].key)
    decreases |b|
  {
    var init := b[..|b| - 1];
    assert b == init + [b[|b| - 1]];
    if i == |b| - 1 {
      FoldContents(m, init, b[i].key);
    } else {
      assert init[..i] == b[..i];
      GetSeesEarlierActions(m, init, i);
    }
  }

  /** The ordering test of the source: set, get, overwrite, get, delete, get
      in one batch read "value", "overwrite" and nothing. */
  lemma OrderPreservedExample()
    ensures
      var b := [Set("key", "value"), Get(0, "key"), Set("key", "overwrite"),
                Get(1, "key"), Delete("key"), Get(2, "key")];
      Fold(map[], b).results == map[0 := Some("value"), 1 := Some("overwrite"), 2 := None]
  {
    var b: seq<Action<string, string>> :=
      [Set("key", "value"), Get(0, "key"), Set("key", "overwrite"),
       Get(1, "key"), Delete("key"), Get(2, "key")];
    GetSeesEarlierActions(map[], b, 1);
    GetSeesEarlierActions(map[], b, 3);
    GetSeesEarlierActions(map[], b, 5);
  }
}

=== FILE: idbkv.dfy ===
/** The `Idbkv` store as a sequential state machine. Timers, promises and
    IndexedDB callbacks become explicit events; each event is a pure step
    function from one store state to the next:

    - a call of `get`, `set` or `delete` queues one action and joins or
      starts a commit;
    - the commit's debounce timer fires (and the commit awaits the database);
    - the oldest issued transaction completes or aborts;
    - opening the database succeeds or fails, and whatever awaited the
      opening database resumes, in the order it started waiting;
    - `destroy` is called, and the database deletion it requested finishes.

    IndexedDB itself is an abstract map (`disk`) plus these outcome events. */
module Idbkv {
  import opened KvTypes
  import opened Batch

  /** The settled or unsettled value of the `this.db` promise. */
  datatype DbState = Opening | Open | Failed(err: Error) | Destroyed

  /** The state of one commit promise. A commit is started `Debouncing`.
      When its debounce expires while the database is still opening, it is
      `AwaitingOpen` until the open settles. Once its actions are issued in a
      transaction it is `Issued`, and it settles when that transaction does.
      It rejects straight away when the database promise it awaited has
      rejected, or when the connection it got back has been closed. */
  datatype CommitState = Debouncing | AwaitingOpen | Issued | Committed | CommitRejected(err: Error)

  /** A continuation suspended on the opening database: the commit `commit`
      at its await of the database promise, or a `destroy()` call at its
      first await. */
  datatype Waiter = CommitWaiter(commit: nat) | DestroyWaiter

  /** Progress of the database deletion `destroy` requests. */
  datatype Deletion = NotRequested | Deleting | Erased | EraseFailed(cause: string)

  /** A transaction that has been issued and awaits its outcome: the commit
      it belongs to and the batch of actions it carries, in queue order. */
  datatype Tx<K, V> = Tx(commit: nat, actions: seq<Action<K, V>>)

  /** What a caller awaits: the commit it joined, and for a get the identity
      of its own result. */
  datatype Ticket = Ticket(commit: nat, getId: Option<nat>)

  /** The public calls that queue an action. */
  datatype Request<K, V> = GetReq(key: K) | SetReq(key: K, value: V) | DeleteReq(key: K)

  /** The terminal event of a transaction. `Abort(cause, served)`: the
      first `served` requests succeeded before the abort. */
  datatype TxResult = Complete | Abort(cause: string, served: nat)

  datatype Event<K, V> =
    | Call(req: Request<K, V>)
    | TimerFired
    | TxSettled(result: TxResult)
    | DbOpened
    | DbOpenFailed(cause: string)
    | DestroyCalled
    | DeleteSucceeded
    | DeleteErrored(cause: string)

  /** One store instance.
      - `disk`: the contents of the named database; it outlives the instance.
      - `queue`: the pending actions for the next batch.
      - `pending`: the commit `_getOrStartCommit` hands out, if any.
      - `commits`: the state of every commit ever started, by identity.
      - `inflight`: issued transactions, oldest first.
      - `results`: the settled get promises, by identity.
      - `nextGet`: the identity the next get receives.
      - `waiters`: what awaits the opening database, in the order it began waiting. */
  datatype Store<K, V> = Store(
    name: string,
    db: DbState,
    disk: map<K, V>,
    queue: seq<Action<K, V>>,
    pending: Option<nat>,
    commits: seq<CommitState>,
    inflight: seq<Tx<K, V>>,
    results: map<nat, Reply<V>>,
    nextGet: nat,
    deletion: Deletion,
    waiters: seq<Waiter>)

  /** The error a commit meets when it awaits a rejected database promise. */
  function DbError(db: DbState): Option<Error>
  {
    match db
    case Failed(e) => Some(e)
    case Destroyed => Some(DestroyedError)
    case _ => None
  }

  /** Every action still to be applied, in the order it will be applied:
      the batches of the issued transactions, then the queue. */
  function Flatten<K, V>(txs: seq<Tx<K, V>>): seq<Action<K, V>>
  {
    if txs == [] then [] else txs[0].actions + Flatten(txs[1..])
  }

  function Outstanding<K, V>(s: Store<K, V>): seq<Action<K, V>>
  {
    Flatten(s.inflight) + s.queue
  }

  /** Issuing a batch appends it to the outstanding actions of the issued transactions. */
  lemma FlattenSnoc<K, V>(txs: seq<Tx<K, V>>, tx: Tx<K, V>)
    ensures Flatten(txs + [tx]) == Flatten(txs) + tx.actions
    decreases |txs|
  {
    if txs != [] {
      assert (txs + [tx])[1..] == txs[1..] + [tx];
      FlattenSnoc(txs[1..], tx);
    }
  }

  /** The invariant every reachable store state keeps. */
  ghost predicate Valid<K, V>(s: Store<K, V>)
  {
    && Consistent(s)
    // only the opening database is awaited
    && (s.waiters != [] ==> s.db.Opening?)
  }

  /** The invariant, save for the link between waiters and the opening
      database: it also holds while the waiters resume one by one. */
  ghost predicate Consistent<K, V>(s: Store<K, V>)
  {
    CommitsOk(s) && InflightOk(s) && DeletionOk(s) && WaitersOk(s) && GetIdsOk(s)
  }

  /** The commit pointer and the commits not yet issued. */
  ghost predicate CommitsOk<K, V>(s: Store<K, V>)
  {
    // an empty commit pointer means an empty queue: every queued action has joined the pending commit
    && (s.pending.None? ==> s.queue == [])
    // the pending commit has not been issued yet, or it rejected
    && (s.pending.Some? ==> s.pending.value < |s.commits| && PendingOk(s.db, s.commits[s.pending.value]))
    // at most one commit is not yet issued: the pending one
    && (forall i | 0 <= i < |s.commits| && Unissued(s.commits[i]) :: s.pending == Some(i))
  }

  /** Each issued transaction belongs to its own issued commit. */
  ghost predicate InflightOk<K, V>(s: Store<K, V>)
  {
    && (forall j | 0 <= j < |s.inflight| :: s.inflight[j].commit < |s.commits| && s.commits[s.inflight[j].commit].Issued?)
    && (forall i, j | 0 <= i < j < |s.inflight| :: s.inflight[i].commit != s.inflight[j].commit)
  }

  /** A deletion is only requested by a destroy, settles only once every
      issued transaction has, and leaves the database empty on success. */
  ghost predicate DeletionOk<K, V>(s: Store<K, V>)
  {
    && (s.deletion != NotRequested ==> s.db == Destroyed)
    && (s.deletion.Erased? || s.deletion.EraseFailed? ==> s.inflight == [])
    && (s.deletion.Erased? ==> s.disk == map[])
  }

  predicate Unissued(c: CommitState)
  {
    c.Debouncing? || c.AwaitingOpen?
  }

  /** A pending commit is unissued, or it rejected with the error of the
      database promise, or with the closed connection a destroy left behind. */
  ghost predicate PendingOk(db: DbState, c: CommitState)
  {
    || Unissued(c)
    || (c.CommitRejected? && (DbError(db) == Some(c.err) || (db == Destroyed && c.err == ClosedConnection)))
  }

  /** The waiting commit is the pending one, it waits exactly once, and a
      pending commit awaiting the open is among the waiters. */
  ghost predicate WaitersOk<K, V>(s: Store<K, V>)
  {
    && (forall i | 0 <= i < |s.waiters| && s.waiters[i].CommitWaiter? ::
          && s.pending == Some(s.waiters[i].commit)
          && s.waiters[i].commit < |s.commits| && s.commits[s.waiters[i].commit].AwaitingOpen?)
    && (forall i, j | 0 <= i < j < |s.waiters| && s.waiters[i].CommitWaiter? :: !s.waiters[j].CommitWaiter?)
    && (s.pending.Some? && s.pending.value < |s.commits| && s.commits[s.pending.value].AwaitingOpen? ==>
          CommitWaiter(s.pending.value) in s.waiters)
  }

  /** Get identities: increasing in application order, already handed out,
      and not yet settled while their action is outstanding. */
  ghost predicate GetIdsOk<K, V>(s: Store<K, V>)
  {
    var o := Outstanding(s);
    && (forall i, j | 0 <= i < j < |o| && o[i].Get? && o[j].Get? :: o[i].id < o[j].id)
    && (forall i | 0 <= i < |o| && o[i].Get? :: o[i].id < s.nextGet && o[i].id !in s.results)
    && (forall id | id in s.results :: id < s.nextGet)
  }

  /** A new instance over the database named `name`, whose current contents
      are `disk`: the database is still opening, nothing is queued, no commit
      is pending. */
  function Init<K(==), V>(name: string, disk: map<K, V>): (s: Store<K, V>)
    ensures s.db == Opening && s.disk == disk
    ensures s.queue == [] && s.pending == None && s.inflight == []
    ensures s.waiters == [] && s.results == map[] && s.deletion == NotRequested
    ensures Valid(s)
  {
    Store(name, Opening, disk, [], None, [], [], map[], 0, NotRequested, [])
  }

  /** The commit a call made now would join. */
  function NextCommit<K, V>(s: Store<K, V>): nat
  {
    if s.pending.Some? then s.pending.value else |s.commits|
  }

  /** Hand out the pending commit, or start a new debouncing one when none
      is pending. */
  function GetOrStartCommit<K(==), V>(s: Store<K, V>): (r: (Store<K, V>, nat))
    ensures r.0.pending == Some(r.1)
    ensures s.pending.Some? ==> r == (s, s.pending.value)
    ensures s.pending.None? ==> r.1 == |s.commits| && r.0 == s.(pending := Some(r.1), commits := s.commits + [Debouncing])
  {
    match s.pending
    case Some(c) => (s, c)
    case None =>
      var c := |s.commits|;
      (s.(pending := Some(c), commits := s.commits + [Debouncing]), c)
  }

  /** Push one action and join or start a commit. */
  function Enqueue<K(==), V>(s: Store<K, V>, a: Action<K, V>): (Store<K, V>, nat)
  {
    GetOrStartCommit(s.(queue := s.queue + [a]))
  }

  /** `get(key)`: queues a get under a fresh identity; the caller awaits its
      own result raced against the joined commit. */
  function GetCall<K(==), V>(s: Store<K, V>, key: K): (r: (Store<K, V>, Ticket))
    ensures r.0.queue == s.queue + [Get(s.nextGet, key)]
    ensures r.0.nextGet == s.nextGet + 1
    ensures r.1 == Ticket(NextCommit(s), Some(s.nextGet)) && r.0.pending == Some(r.1.commit)
    ensures r.0.commits == (if s.pending.None? then s.commits + [Debouncing] else s.commits)
    ensures r.0 == s.(queue := r.0.queue, nextGet := r.0.nextGet, pending := r.0.pending, commits := r.0.commits)
  {
    var id := s.nextGet;
    var (s', c) := Enqueue(s.(nextGet := id + 1), Get(id, key));
    (s', Ticket(c, Some(id)))
  }

  /** `set(key, value)`: queues a set; the caller awaits the joined commit. */
  function SetCall<K(==), V>(s: Store<K, V>, key: K, value: V): (r: (Store<K, V>, Ticket))
    ensures r.0.queue == s.queue + [Set(key, value)]
    ensures r.0.nextGet == s.nextGet
    ensures r.1 == Ticket(NextCommit(s), None) && r.0.pending == Some(r.1.commit)
    ensures r.0.commits == (if s.pending.None? then s.commits + [Debouncing] else s.commits)
    ensures r.0 == s.(queue := r.0.queue, nextGet := r.0.nextGet, pending := r.0.pending, commits := r.0.commits)
  {
    var (s', c) := Enqueue(s, Set(key, value));
    (s', Ticket(c, None))
  }

  /** `delete(key)`: queues a delete; the caller awaits the joined commit. */
  function DeleteCall<K(==), V>(s: Store<K, V>, key: K): (r: (Store<K, V>, Ticket))
    ensures r.0.queue == s.queue + [Delete(key)]
    ensures r.0.nextGet == s.nextGet
    ensures r.1 == Ticket(NextCommit(s), None) && r.0.pending == Some(r.1.commit)
    ensures r.0.commits == (if s.pending.None? then s.commits + [Debouncing] else s.commits)
    ensures r.0 == s.(queue := r.0.queue, nextGet := r.0.nextGet, pending := r.0.pending, commits := r.0.commits)
  {
    var (s', c) := Enqueue(s, Delete(key));
    (s', Ticket(c, None))
  }

  function CallRequest<K(==), V>(s: Store<K, V>, req: Request<K, V>): (Store<K, V>, Ticket)
  {
    match req
    case GetReq(k) => GetCall(s, k)
    case SetReq(k, v) => SetCall(s, k, v)
    case DeleteReq(k) => DeleteCall(s, k)
  }

  /** The pending commit's debounce timer is armed. */
  predicate Armed<K, V>(s: Store<K, V>)
  {
    s.pending.Some? && s.pending.value < |s.commits| && s.commits[s.pending.value].Debouncing?
  }

  /** Commit `c` got an open connection: the whole queue as it stands now
      is issued as one transaction, and the queue and the commit pointer are
      reset before the outcome is known. No action is lost, duplicated or
      reordered. */
  function Issue<K, V>(s: Store<K, V>, c: nat): (r: Store<K, V>)
    ensures Outstanding(r) == Outstanding(s)
    ensures r.queue == [] && r.pending == None
    ensures r.inflight == s.inflight + [Tx(c, s.queue)]
  {
    FlattenSnoc(s.inflight, Tx(c, s.queue));
    s.(inflight := s.inflight + [Tx(c, s.queue)], queue := [], pending := None,
       commits := Mark(s.commits, c, Issued))
  }

  /** The debounce of the pending commit has expired and the commit awaits
      the database promise. While the database is opening it joins the
      waiters. Once open, the queue is issued. When the database promise has
      rejected, the commit rejects with that error and nothing is reset. */
  function Commit<K(==), V>(s: Store<K, V>): (r: Store<K, V>)
    ensures Outstanding(r) == Outstanding(s)
    ensures r.db == s.db && r.disk == s.disk && r.results == s.results
    ensures r.nextGet == s.nextGet && r.deletion == s.deletion
    ensures !Armed(s) ==> r == s
    ensures Armed(s) && s.db.Opening? ==>
      && r.queue == s.queue && r.pending == s.pending && r.inflight == s.inflight
      && r.waiters == s.waiters + [CommitWaiter(s.pending.value)]
      && r.commits == s.commits[s.pending.value := AwaitingOpen]
    ensures Armed(s) && s.db.Open? ==>
      && r.queue == [] && r.pending == None
      && r.inflight == s.inflight + [Tx(s.pending.value, s.queue)]
      && r.commits == s.commits[s.pending.value := Issued]
    ensures Armed(s) && DbError(s.db).Some? ==>
      && r.queue == s.queue && r.pending == s.pending && r.inflight == s.inflight
      && CommitReply<V>(r.commits, s.pending.value) == Rejected(DbError(s.db).value)
      && r.commits == s.commits[s.pending.value := CommitRejected(DbError(s.db).value)]
  {
    if !Armed(s) then s
    else
      var c := s.pending.value;
      match s.db
      case Opening => s.(commits := s.commits[c := AwaitingOpen], waiters := s.waiters + [CommitWaiter(c)])
      case Open => Issue(s, c)
      case Failed(e) => s.(commits := s.commits[c := CommitRejected(e)])
      case Destroyed => s.(commits := s.commits[c := CommitRejected(DestroyedError)])
  }

  /** Settle every get identity of `ids` as rejected with `e`. */
  function RejectAll<V>(ids: set<nat>, e: Error): (m: map<nat, Reply<V>>)
    ensures m.Keys == ids
    ensures forall id | id in m :: m[id] == Rejected(e)
  {
    map id | id in ids :: Rejected(e)
  }

  /** Settle the gets whose reads succeeded with the values they read. */
  function ResolveAll<V>(found: map<nat, Option<V>>): (m: map<nat, Reply<V>>)
    ensures m.Keys == found.Keys
    ensures forall id | id in m :: m[id] == Resolved(found[id])
  {
    map id | id in found :: Resolved(found[id])
  }

  /** Set the state of commit `c`. */
  function Mark(commits: seq<CommitState>, c: nat, st: CommitState): seq<CommitState>
  {
    if c < |commits| then commits[c := st] else commits
  }

  /** The oldest issued transaction reaches its terminal event. On
      completion its batch is applied to the database, each get resolves
      with what it read and the commit resolves. On abort the database is
      unchanged, the gets served before the abort resolve with what they
      read, every other get rejects with the transaction's error, and the
      commit rejects with it. */
  function Settle<K(==), V>(s: Store<K, V>, res: TxResult): (r: Store<K, V>)
    ensures s.inflight == [] ==> r == s
    ensures s.inflight != [] ==>
      && r.inflight == s.inflight[1..]
      && r.queue == s.queue && r.pending == s.pending && r.db == s.db && r.nextGet == s.nextGet
      && r.deletion == s.deletion
    ensures s.inflight != [] && res.Complete? ==>
      var tx := s.inflight[0];
      var applied := Fold(s.disk, tx.actions);
      && r.disk == applied.contents
      && r.commits == Mark(s.commits, tx.commit, Committed)
      && r.results.Keys == s.results.Keys + GetIds(tx.actions)
      && (forall id | id in GetIds(tx.actions) :: r.results[id] == Resolved(applied.results[id]))
      && (forall id | id in s.results && id !in GetIds(tx.actions) :: r.results[id] == s.results[id])
    ensures s.inflight != [] && res.Abort? ==>
      var tx := s.inflight[0];
      var n := if res.served < |tx.actions| then res.served else |tx.actions|;
      var e := TransactionError(res.cause);
      && r.disk == s.disk
      && r.commits == Mark(s.commits, tx.commit, CommitRejected(e))
      && r.results.Keys == s.results.Keys + GetIds(tx.actions)
      && (forall id | id in GetIds(tx.actions[..n]) ::
            r.results[id] == Resolved(Fold(s.disk, tx.actions[..n]).results[id]))
      && (forall id | id in GetIds(tx.actions[n..]) && id !in GetIds(tx.actions[..n]) ::
            r.results[id] == Rejected(e))
      && (forall id | id in s.results && id !in GetIds(tx.actions) :: r.results[id] == s.results[id])
  {
    if s.inflight == [] then s
    else
      var tx := s.inflight[0];
      match res
      case Complete =>
        var applied := Fold(s.disk, tx.actions);
        s.(disk := applied.contents, inflight := s.inflight[1..],
           results := s.results + ResolveAll(applied.results),
           commits := Mark(s.commits, tx.commit, Committed))
      case Abort(cause, served) =>
        var n := if served < |tx.actions| then served else |tx.actions|;
        var e := TransactionError(cause);
        var served := Fold(s.disk, tx.actions[..n]);
        GetIdsSplit(tx.actions, n);
        s.(inflight := s.inflight[1..],
           results := s.results + RejectAll(GetIds(tx.actions[n..]), e) + ResolveAll(served.results),
           commits := Mark(s.commits, tx.commit, CommitRejected(e)))
  }

  /** The get identities of a batch are those of its two halves. */
  lemma GetIdsSplit<K, V>(b: seq<Action<K, V>>, n: nat)
    requires n <= |b|
    ensures GetIds(b) == GetIds(b[..n]) + GetIds(b[n..])
  {
    forall id | id in GetIds(b) ensures id in GetIds(b[..n]) + GetIds(b[n..]) {
      var i :| 0 <= i < |b| && b[i].Get? && b[i].id == id;
      if i < n {
        assert b[..n][i] == b[i];
      } else {
        assert b[n..][i - n] == b[i];
      }
    }
  }

  /** `destroy()` got the open connection: it closes it, requests the
      deletion of the database and replaces the database promise by the
      destroyed rejection. A second such call joins the deletion already
      requested. */
  function CloseAndDelete<K, V>(s: Store<K, V>): (r: Store<K, V>)
    ensures r.db == Destroyed && DbError(r.db) == Some(DestroyedError)
    ensures r.deletion == (if s.deletion.NotRequested? then Deleting else s.deletion)
    ensures r == s.(db := r.db, deletion := r.deletion)
  {
    s.(db := Destroyed, deletion := if s.deletion.NotRequested? then Deleting else s.deletion)
  }

  /** One waiter resumes once the open has settled. A commit that got the
      connection issues its batch, unless a destroy that resumed before it
      has closed that connection: then creating the transaction throws,
      before the reset, and the commit rejects with the closed-connection
      error. A commit whose open failed rejects with the open error. A
      destroy that got the connection closes and deletes; one whose open
      failed changes nothing. */
  function Resume<K, V>(s: Store<K, V>, w: Waiter): (r: Store<K, V>)
    ensures Outstanding(r) == Outstanding(s)
    ensures r.disk == s.disk && r.results == s.results && r.nextGet == s.nextGet && r.waiters == s.waiters
    ensures s.db.Failed? || s.db.Destroyed? ==> r.db == s.db
    ensures s.db.Open? ==> r.db == (if w.DestroyWaiter? then Destroyed else Open)
  {
    match w
    case CommitWaiter(c) =>
      (match s.db
       case Open => Issue(s, c)
       case Destroyed => s.(commits := Mark(s.commits, c, CommitRejected(ClosedConnection)))
       case Failed(e) => s.(commits := Mark(s.commits, c, CommitRejected(e)))
       case Opening => s)
    case DestroyWaiter =>
      if s.db.Open? || s.db.Destroyed? then CloseAndDelete(s) else s
  }

  /** Every waiter resumes, in the order it began waiting. */
  function ResumeAll<K, V>(s: Store<K, V>): (r: Store<K, V>)
    ensures r.waiters == []
    ensures Outstanding(r) == Outstanding(s)
    ensures r.disk == s.disk && r.results == s.results && r.nextGet == s.nextGet
    ensures s.db.Failed? ==> r.db == s.db
    ensures s.db.Open? || s.db.Destroyed? ==>
      && (r.db.Open? || r.db.Destroyed?)
      && (r.db.Destroyed? <==> s.db.Destroyed? || DestroyWaiter in s.waiters)
    decreases |s.waiters|
  {
    if s.waiters == [] then s
    else
      assert s.waiters == [s.waiters[0]] + s.waiters[1..];
      ResumeAll(Resume(s.(waiters := s.waiters[1..]), s.waiters[0]))
  }

  /** The open request of the constructor succeeded: the database promise
      resolves, and everything that awaited it resumes in order. */
  function OpenSucceeded<K, V>(s: Store<K, V>): (r: Store<K, V>)
    ensures !s.db.Opening? ==> r == s
    ensures s.db.Opening? ==>
      && r.waiters == []
      && (r.db.Open? || r.db.Destroyed?)
      && (r.db.Destroyed? <==> DestroyWaiter in s.waiters)
    ensures Outstanding(r) == Outstanding(s)
    ensures r.disk == s.disk && r.results == s.results && r.nextGet == s.nextGet
  {
    if s.db.Opening? then ResumeAll(s.(db := Open)) else s
  }

  /** The open request of the constructor failed: the database promise
      rejects, once and for all, with an error naming the database, and
      everything that awaited it resumes with that rejection. */
  function OpenFailedWith<K, V>(s: Store<K, V>, cause: string): (r: Store<K, V>)
    ensures s.db.Opening? ==> r.db == Failed(OpenError(s.name, cause)) && r.waiters == []
    ensures s.db.Opening? ==>
      Message(r.db.err) == "error opening the indexedDB database named " + s.name + ": " + cause
    ensures !s.db.Opening? ==> r == s
    ensures Outstanding(r) == Outstanding(s)
    ensures r.disk == s.disk && r.results == s.results && r.nextGet == s.nextGet
  {
    if s.db.Opening? then ResumeAll(s.(db := Failed(OpenError(s.name, cause)))) else s
  }

  /** `destroy()`. While the database is opening the call suspends at its
      first await and joins the waiters. Once open, it closes the connection
      and requests the deletion; the call's own promise settles with the
      deletion. When the database promise has already rejected, the call
      rejects with that error. No caller's promise settles, and the queue
      and the pending commit are left alone. */
  function Destroy<K, V>(s: Store<K, V>): (r: (Store<K, V>, Reply<V>))
    ensures forall t :: Observe(r.0, t) == Observe(s, t)
    ensures Outstanding(r.0) == Outstanding(s) && r.0.pending == s.pending
    ensures r.0.disk == s.disk && r.0.inflight == s.inflight
    ensures s.db.Open? ==> r.0.db == Destroyed && r.0.deletion == Deleting
    ensures !s.db.Open? ==> r.0.db == s.db && r.0.deletion == s.deletion
    ensures s.db.Opening? ==> r.0.waiters == s.waiters + [DestroyWaiter]
    ensures r.1.Rejected? <==> DbError(s.db).Some?
    ensures r.1.Rejected? ==> r.1.err == DbError(s.db).value
    ensures !r.1.Rejected? ==> r.1 == Unsettled
  {
    match s.db
    case Opening => (s.(waiters := s.waiters + [DestroyWaiter]), Unsettled)
    case Open => (s.(db := Destroyed, deletion := Deleting), Unsettled)
    case Failed(e) => (s, Rejected(e))
    case Destroyed => (s, Rejected(DestroyedError))
  }

  /** The deletion request settles, once. It can only do so once the
      connection has closed, which waits for every issued transaction;
      success erases the database's contents. No caller's promise settles. */
  function FinishDelete<K, V>(s: Store<K, V>, failure: Option<string>): (r: Store<K, V>)
    ensures forall t :: Observe(r, t) == Observe(s, t)
    ensures DestroyReply<K, V>(s) != Unsettled || s.inflight != [] || !s.deletion.Deleting? ==> r == s
    ensures s.deletion.Deleting? && s.inflight == [] ==>
      DestroyReply<K, V>(r) == (if failure.None? then Resolved(None) else Rejected(DeleteError(failure.value)))
    ensures r.disk == s.disk || (failure.None? && r.disk == map[])
    ensures DestroyReply<K, V>(r) == Resolved(None) && DestroyReply<K, V>(s) == Unsettled ==> r.disk == map[]
  {
    if !(s.deletion.Deleting? && s.inflight == []) then s
    else match failure
      case None => s.(disk := map[], deletion := Erased)
      case Some(cause) => s.(deletion := EraseFailed(cause))
  }

  /** What the promise returned by `destroy()` has done, once the call got
      past its await: it settles exactly when the deletion has, resolving
      with nothing or rejecting with the deletion's error. */
  function DestroyReply<K, V>(s: Store<K, V>): (r: Reply<V>)
    ensures r != Unsettled <==> s.deletion.Erased? || s.deletion.EraseFailed?
    ensures r.Resolved? ==> r.value == None
    ensures r.Rejected? ==> s.deletion.EraseFailed? && r.err == DeleteError(s.deletion.cause)
  {
    match s.deletion
    case Erased => Resolved(None)
    case EraseFailed(cause) => Rejected(DeleteError(cause))
    case _ => Unsettled
  }

  /** What the joined commit promise has done. */
  function CommitReply<V>(commits: seq<CommitState>, c: nat): Reply<V>
  {
    if c >= |commits| then Unsettled
    else match commits[c]
      case Committed => Resolved(None)
      case CommitRejected(e) => Rejected(e)
      case _ => Unsettled
  }

  /** What a caller's promise has done. A set or delete follows its commit.
      A get returns its own result, unless the commit rejected first: the
      race of the get against the commit then rejects the get. The commit
      resolving does not resolve a get. */
  function Observe<K, V>(s: Store<K, V>, t: Ticket): (r: Reply<V>)
    ensures t.getId.None? ==> r == CommitReply(s.commits, t.commit)
    ensures t.getId.Some? && t.getId.value in s.results ==> r == s.results[t.getId.value]
    ensures t.getId.Some? && t.getId.value !in s.results ==>
      && !r.Resolved?
      && (r.Rejected? <==> CommitReply<V>(s.commits, t.commit).Rejected?)
      && (r.Rejected? ==> r == CommitReply(s.commits, t.commit))
  {
    match t.getId
    case None => CommitReply(s.commits, t.commit)
    case Some(id) =>
      if id in s.results then s.results[id]
      else if CommitReply<V>(s.commits, t.commit).Rejected? then CommitReply(s.commits, t.commit)
      else Unsettled
  }

  function Step<K(==), V>(s: Store<K, V>, ev: Event<K, V>): Store<K, V>
  {
    match ev
    case Call(req) => CallRequest(s, req).0
    case TimerFired => Commit(s)
    case TxSettled(res) => Settle(s, res)
    case DbOpened => OpenSucceeded(s)
    case DbOpenFailed(cause) => OpenFailedWith(s, cause)
    case DestroyCalled => Destroy(s).0
    case DeleteSucceeded => FinishDelete(s, None)
    case DeleteErrored(cause) => FinishDelete(s, Some(cause))
  }

  /** The store after a sequence of events, in order. */
  function Run<K(==), V>(s: Store<K, V>, evs: seq<Event<K, V>>): Store<K, V>
    decreases |evs|
  {
    if evs == [] then s else Run(Step(s, evs[0]), evs[1..])
  }
}

=== FILE: proofs.dfy ===
/** Properties of the store state machine: the invariant every event keeps,
    commit sharing within a burst of calls, read-your-own-write across a
    whole commit cycle, and the permanent rejection of a store whose
    database promise has rejected. */
module IdbkvProofs {
  import opened KvTypes
  import opened Batch
  import opened Idbkv

  /** The queued action `a` is the one `req` asked for. */
  ghost predicate Matches<K, V>(a: Action<K, V>, req: Request<K, V>)
  {
    match req
    case GetReq(k) => a.Get? && a.key == k
    case SetReq(k, v) => a == Set(k, v)
    case DeleteReq(k) => a == Delete(k)
  }

  /** The ticket a caller holds for the queued action `a` of commit `c`. */
  function TicketFor<K, V>(c: nat, a: Action<K, V>): Ticket
  {
    Ticket(c, if a.Get? then Some(a.id) else None)
  }

  /** A burst of calls issued without awaiting in between. */
  function EnqueueAll<K(==), V>(s: Store<K, V>, reqs: seq<Request<K, V>>): (Store<K, V>, seq<Ticket>)
    decreases |reqs|
  {
    if reqs == [] then (s, [])
    else
      var (s1, ts) := EnqueueAll(s, reqs[..|reqs| - 1]);
      var (s2, t) := CallRequest(s1, reqs[|reqs| - 1]);
      (s2, ts + [t])
  }

  /** The commit pointer holds a commit that rejected with `e`. */
  ghost predicate Poisoned<K, V>(s: Store<K, V>, e: Error)
  {
    s.pending.Some? && s.pending.value < |s.commits| && s.commits[s.pending.value] == CommitRejected(e)
  }

  // ---------------------------------------------------------------------
  // Helpers about the outstanding actions

  /** The outstanding actions of a store that has issued a transaction start with its batch. */
  lemma OutstandingHead<K, V>(s: Store<K, V>)
    requires s.inflight != []
    ensures Outstanding(s) == s.inflight[0].actions + Outstanding(s.(inflight := s.inflight[1..]))
  {
  }

  /** Every get identity of a batch is the identity of one of its gets. */
  lemma GetIdWitness<K, V>(b: seq<Action<K, V>>, id: nat) returns (i: nat)
    requires id in GetIds(b)
    ensures i < |b| && b[i].Get? && b[i].id == id
  {
    i :| 0 <= i < |b| && b[i].Get? && b[i].id == id;
  }

  // ---------------------------------------------------------------------
  // The invariant is kept by every event

  /** The get-identity part of the invariant only looks at the outstanding
      actions, the settled results and the identity counter. */
  lemma GetIdsOkFrame<K, V>(s: Store<K, V>, s': Store<K, V>)
    requires GetIdsOk(s)
    requires Outstanding(s') == Outstanding(s) && s'.results == s.results && s'.nextGet == s.nextGet
    ensures GetIdsOk(s')
  {
  }

  /** A call keeps the commit, transaction and waiter parts of the
      invariant: it starts a commit only when none is pending. */
  lemma CallKeepsCommits<K, V>(s: Store<K, V>, req: Request<K, V>)
    requires Valid(s)
    ensures var s' := CallRequest(s, req).0;
      CommitsOk(s') && InflightOk(s') && WaitersOk(s')
  {
    var s' := CallRequest(s, req).0;
    if s.pending.None? {
      forall i | 0 <= i < |s'.commits| && Unissued(s'.commits[i])
        ensures s'.pending == Some(i)
      {
        if i < |s.commits| {
          assert false;
        }
      }
      forall i | 0 <= i < |s'.waiters|
        ensures !s'.waiters[i].CommitWaiter?
      {
        assert s.waiters[i] == s'.waiters[i];
      }
    }
  }

  /** A call appends one action, a get with the next fresh identity. */
  lemma CallKeepsGetIds<K, V>(s: Store<K, V>, req: Request<K, V>)
    requires GetIdsOk(s)
    ensures GetIdsOk(CallRequest(s, req).0)
  {
    var s' := CallRequest(s, req).0;
    var a := s'.queue[|s'.queue| - 1];
    assert s'.queue == s.queue + [a];
    assert Outstanding(s') == Outstanding(s) + [a];
    assert a.Get? ==> a.id == s.nextGet && s'.nextGet == s.nextGet + 1;
  }

  lemma CallPreservesValid<K, V>(s: Store<K, V>, req: Request<K, V>)
    requires Valid(s)
    ensures Valid(CallRequest(s, req).0)
  {
    CallKeepsCommits(s, req);
    CallKeepsGetIds(s, req);
  }

  /** A fired commit keeps the invariant while the database opens: it
      becomes the one commit waiting, behind every waiting destroy. */
  lemma CommitWhileOpeningPreservesValid<K, V>(s: Store<K, V>)
    requires Valid(s) && Armed(s) && s.db.Opening?
    ensures Valid(Commit(s))
  {
    var s' := Commit(s);
    var c := s.pending.value;
    forall i | 0 <= i < |s.waiters|
      ensures !s.waiters[i].CommitWaiter? && s'.waiters[i] == s.waiters[i]
    {
    }
    assert s'.waiters[|s.waiters|] == CommitWaiter(c);
    forall j | 0 <= j < |s.inflight|
      ensures s.inflight[j].commit != c
    {
      assert s.commits[s.inflight[j].commit].Issued?;
    }
    GetIdsOkFrame(s, s');
  }

  lemma CommitPreservesValid<K, V>(s: Store<K, V>)
    requires Valid(s)
    ensures Valid(Commit(s))
  {
    var s' := Commit(s);
    if Armed(s) {
      var c := s.pending.value;
      forall j | 0 <= j < |s.inflight|
        ensures s.inflight[j].commit != c
      {
        assert s.commits[s.inflight[j].commit].Issued?;
      }
      if s.db.Opening? {
        CommitWhileOpeningPreservesValid(s);
      } else {
        GetIdsOkFrame(s, s');
      }
    }
  }

  /** Settling the oldest transaction keeps the get-identity invariant: the
      gets it settles are exactly its own, all older than every get still
      outstanding. */
  lemma SettleKeepsGetIds<K, V>(s: Store<K, V>, res: TxResult)
    requires GetIdsOk(s) && s.inflight != []
    ensures GetIdsOk(Settle(s, res))
  {
    var s' := Settle(s, res);
    assert s'.queue == s.queue && s'.inflight == s.inflight[1..];
    assert s'.results.Keys == s.results.Keys + GetIds(s.inflight[0].actions);
    DropHeadKeepsGetIds(s, s');
  }

  /** The oldest batch leaving the outstanding actions, with exactly its
      gets gaining a result, keeps the get-identity invariant. */
  lemma DropHeadKeepsGetIds<K, V>(s: Store<K, V>, s': Store<K, V>)
    requires GetIdsOk(s) && s.inflight != []
    requires s'.queue == s.queue && s'.inflight == s.inflight[1..] && s'.nextGet == s.nextGet
    requires s'.results.Keys == s.results.Keys + GetIds(s.inflight[0].actions)
    ensures GetIdsOk(s')
  {
    var h := s.inflight[0].actions;
    var o := Outstanding(s);
    var o' := Outstanding(s');
    OutstandingHead(s);
    assert o == h + o';
    forall i | 0 <= i < |o'| && o'[i].Get?
      ensures o'[i].id < s'.nextGet && o'[i].id !in s'.results
    {
      assert o'[i] == o[|h| + i];
      forall k | 0 <= k < |h| && h[k].Get?
        ensures h[k].id != o'[i].id
      {
        assert o[k] == h[k];
      }
      assert o'[i].id !in GetIds(h);
    }
    forall i, j | 0 <= i < j < |o'| && o'[i].Get? && o'[j].Get?
      ensures o'[i].id < o'[j].id
    {
      assert o'[i] == o[|h| + i] && o'[j] == o[|h| + j];
    }
    forall id | id in s'.results
      ensures id < s'.nextGet
    {
      if id in GetIds(h) {
        var k := GetIdWitness(h, id);
        assert o[k] == h[k];
      }
    }
  }

  /** Settling the oldest transaction only touches its own issued commit,
      which is neither pending nor waiting. */
  lemma SettleKeepsCommits<K, V>(s: Store<K, V>, res: TxResult)
    requires Valid(s) && s.inflight != []
    ensures var s' := Settle(s, res);
      && (forall i | 0 <= i < |s'.commits| && Unissued(s'.commits[i]) :: s'.pending == Some(i))
      && (s'.pending.Some? ==> s'.pending.value < |s'.commits| && PendingOk(s'.db, s'.commits[s'.pending.value]))
      && WaitersOk(s')
  {
    var s' := Settle(s, res);
    var c := s.inflight[0].commit;
    assert s'.commits == s.commits[c := s'.commits[c]];
    assert s.commits[c].Issued?;
    assert s'.waiters == s.waiters;
  }

  lemma SettlePreservesValid<K, V>(s: Store<K, V>, res: TxResult)
    requires Valid(s)
    ensures Valid(Settle(s, res))
  {
    if s.inflight != [] {
      var s' := Settle(s, res);
      var c := s.inflight[0].commit;
      assert s'.commits == s.commits[c := s'.commits[c]];
      assert s.commits[c].Issued?;
      forall j | 0 <= j < |s'.inflight|
        ensures s'.inflight[j].commit < |s'.commits| && s'.commits[s'.inflight[j].commit].Issued?
      {
        assert s'.inflight[j] == s.inflight[j + 1];
      }
      forall i, j | 0 <= i < j < |s'.inflight|
        ensures s'.inflight[i].commit != s'.inflight[j].commit
      {
        assert s'.inflight[i] == s.inflight[i + 1] && s'.inflight[j] == s.inflight[j + 1];
      }
      SettleKeepsCommits(s, res);
      SettleKeepsGetIds(s, res);
    }
  }

  /** A waiting destroy resumes: the store is destroyed if the open
      succeeded, and nothing else changes. */
  lemma ResumeDestroyKeepsConsistent<K, V>(s: Store<K, V>)
    requires Consistent(s) && s.waiters != [] && s.waiters[0].DestroyWaiter? && !s.db.Opening?
    ensures Consistent(Resume(s.(waiters := s.waiters[1..]), s.waiters[0]))
  {
    var w := s.waiters[1..];
    var r := Resume(s.(waiters := w), s.waiters[0]);
    assert r == s.(waiters := w) || r == CloseAndDelete(s.(waiters := w));
    assert r.commits == s.commits && r.pending == s.pending && r.queue == s.queue && r.inflight == s.inflight;
    assert CommitsOk(r) by {
      assert r.db == s.db || (s.db.Open? && r.db == Destroyed);
    }
    assert WaitersOk(r) by {
      assert s.waiters == [s.waiters[0]] + w;
      forall i | 0 <= i < |w|
        ensures w[i] == s.waiters[i + 1]
      {
      }
    }
    assert InflightOk(r) && DeletionOk(r);
    GetIdsOkFrame(s, r);
  }

  /** The facts about a waiting commit at the head of the waiters that the
      resumption lemmas share. */
  lemma HeadCommitWaiter<K, V>(s: Store<K, V>)
    requires Consistent(s) && s.waiters != [] && s.waiters[0].CommitWaiter?
    ensures var c := s.waiters[0].commit;
      && s.pending == Some(c) && c < |s.commits| && s.commits[c].AwaitingOpen?
      && (forall i | 0 <= i < |s.waiters| - 1 :: !s.waiters[1..][i].CommitWaiter?)
      && (forall j | 0 <= j < |s.inflight| :: s.inflight[j].commit != c)
  {
    var c := s.waiters[0].commit;
    forall i | 0 <= i < |s.waiters| - 1
      ensures !s.waiters[1..][i].CommitWaiter?
    {
      assert s.waiters[1..][i] == s.waiters[i + 1];
    }
    forall j | 0 <= j < |s.inflight|
      ensures s.inflight[j].commit != c
    {
      assert s.commits[s.inflight[j].commit].Issued?;
    }
  }

  /** The waiting commit resumes with an open connection and issues its batch. */
  lemma ResumeIssueKeepsConsistent<K, V>(s: Store<K, V>)
    requires Consistent(s) && s.waiters != [] && s.waiters[0].CommitWaiter? && s.db.Open?
    ensures Consistent(Resume(s.(waiters := s.waiters[1..]), s.waiters[0]))
  {
    var c := s.waiters[0].commit;
    HeadCommitWaiter(s);
    var r := Resume(s.(waiters := s.waiters[1..]), s.waiters[0]);
    assert r.commits == s.commits[c := Issued];
    GetIdsOkFrame(s, r);
  }

  /** The waiting commit resumes with a failed open or a closed connection,
      and rejects while staying pending. */
  lemma ResumeRejectKeepsConsistent<K, V>(s: Store<K, V>)
    requires Consistent(s) && s.waiters != [] && s.waiters[0].CommitWaiter?
    requires s.db.Failed? || s.db.Destroyed?
    ensures Consistent(Resume(s.(waiters := s.waiters[1..]), s.waiters[0]))
  {
    var c := s.waiters[0].commit;
    HeadCommitWaiter(s);
    var r := Resume(s.(waiters := s.waiters[1..]), s.waiters[0]);
    assert r.commits == s.commits[c := r.commits[c]] && r.commits[c].CommitRejected?;
    assert r.pending == s.pending && r.queue == s.queue && r.inflight == s.inflight;
    GetIdsOkFrame(s, r);
  }

  /** Every waiter resuming in turn keeps the invariant. */
  lemma {:induction false} ResumeAllKeepsConsistent<K, V>(s: Store<K, V>)
    requires Consistent(s) && !s.db.Opening?
    ensures Consistent(ResumeAll(s)) && !ResumeAll(s).db.Opening?
    decreases |s.waiters|
  {
    if s.waiters != [] {
      var r := Resume(s.(waiters := s.waiters[1..]), s.waiters[0]);
      if s.waiters[0].DestroyWaiter? {
        ResumeDestroyKeepsConsistent(s);
      } else if s.db.Open? {
        ResumeIssueKeepsConsistent(s);
      } else {
        ResumeRejectKeepsConsistent(s);
      }
      ResumeAllKeepsConsistent(r);
    }
  }

  /** The open settling keeps the invariant: no commit has rejected and no
      deletion is requested while the database opens. */
  lemma OpenPreservesValid<K, V>(s: Store<K, V>, ev: Event<K, V>)
    requires Valid(s) && (ev.DbOpened? || ev.DbOpenFailed?)
    ensures Valid(Step(s, ev))
  {
    if s.db.Opening? {
      var s1 := if ev.DbOpened? then s.(db := Open) else s.(db := Failed(OpenError(s.name, ev.cause)));
      GetIdsOkFrame(s, s1);
      assert Consistent(s1);
      ResumeAllKeepsConsistent(s1);
    }
  }

  // ---------------------------------------------------------------------
  // A settled promise stays settled

  /** Resuming the waiters settles only the waiting commit, which had not
      settled before: every commit promise that had settled keeps its outcome. */
  lemma {:induction false} ResumeAllKeepsReplies<K, V>(s: Store<K, V>, c: nat)
    requires Consistent(s) && !s.db.Opening? && CommitReply<V>(s.commits, c) != Unsettled
    ensures CommitReply<V>(ResumeAll(s).commits, c) == CommitReply(s.commits, c)
    decreases |s.waiters|
  {
    if s.waiters != [] {
      var r := Resume(s.(waiters := s.waiters[1..]), s.waiters[0]);
      if s.waiters[0].DestroyWaiter? {
        ResumeDestroyKeepsConsistent(s);
        assert r.commits == s.commits;
      } else {
        HeadCommitWaiter(s);
        var w := s.waiters[0].commit;
        assert w != c;
        if s.db.Open? {
          ResumeIssueKeepsConsistent(s);
        } else {
          ResumeRejectKeepsConsistent(s);
        }
        assert r.commits == Mark(s.commits, w, r.commits[w]);
      }
      ResumeAllKeepsReplies(r, c);
    }
  }

  /** A transaction's outcome settles its own commit, which was issued and so
      not yet settled, and the gets of its own batch, which had no result yet. */
  lemma SettleKeepsReplies<K, V>(s: Store<K, V>, res: TxResult, c: nat, id: nat)
    requires Valid(s)
    ensures var r := Settle(s, res);
      && (CommitReply<V>(s.commits, c) != Unsettled ==> CommitReply<V>(r.commits, c) == CommitReply(s.commits, c))
      && (id in s.results ==> id in r.results && r.results[id] == s.results[id])
  {
    if s.inflight != [] {
      var tx := s.inflight[0];
      assert s.commits[tx.commit].Issued?;
      OutstandingHead(s);
      forall j | j in GetIds(tx.actions)
        ensures j !in s.results
      {
        var i := GetIdWitness(tx.actions, j);
        assert Outstanding(s)[i] == tx.actions[i];
      }
    }
  }

  /** A call only appends a commit, and settles nothing. */
  lemma CallKeepsReplies<K, V>(s: Store<K, V>, req: Request<K, V>, c: nat)
    ensures var r := CallRequest(s, req).0;
      && (CommitReply<V>(s.commits, c) != Unsettled ==> CommitReply<V>(r.commits, c) == CommitReply(s.commits, c))
      && r.results == s.results
  {
    var r := CallRequest(s, req).0;
    assert r.commits[..|s.commits|] == s.commits;
    if c < |s.commits| {
      assert r.commits[c] == r.commits[..|s.commits|][c];
    }
  }

  /** A fired commit only marks the pending commit, which is still
      debouncing, and settles no get. */
  lemma CommitKeepsReplies<K, V>(s: Store<K, V>, c: nat)
    ensures var r := Commit(s);
      && (CommitReply<V>(s.commits, c) != Unsettled ==> CommitReply<V>(r.commits, c) == CommitReply(s.commits, c))
      && r.results == s.results
  {
    if Armed(s) {
      var p := s.pending.value;
      assert Commit(s).commits == s.commits[p := Commit(s).commits[p]];
    }
  }

  /** `destroy()` and the deletion settling touch no commit and no get. */
  lemma DestroyKeepsReplies<K, V>(s: Store<K, V>, ev: Event<K, V>)
    requires ev.DestroyCalled? || ev.DeleteSucceeded? || ev.DeleteErrored?
    ensures Step(s, ev).commits == s.commits && Step(s, ev).results == s.results
  {
  }

  /** The open settling resumes the waiters, which settles only the waiting
      commit; no get gains a result. */
  lemma OpenKeepsReplies<K, V>(s: Store<K, V>, ev: Event<K, V>, c: nat)
    requires Valid(s) && (ev.DbOpened? || ev.DbOpenFailed?)
    ensures var r := Step(s, ev);
      && (CommitReply<V>(s.commits, c) != Unsettled ==> CommitReply<V>(r.commits, c) == CommitReply(s.commits, c))
      && r.results == s.results
  {
    if s.db.Opening? && CommitReply<V>(s.commits, c) != Unsettled {
      var s1 := if ev.DbOpened? then s.(db := Open) else s.(db := Failed(OpenError(s.name, ev.cause)));
      GetIdsOkFrame(s, s1);
      ResumeAllKeepsReplies(s1, c);
    }
  }

  /** One event never changes a settled commit promise or a settled get. */
  lemma StepKeepsReplies<K, V>(s: Store<K, V>, ev: Event<K, V>, c: nat, id: nat)
    requires Valid(s)
    ensures var r := Step(s, ev);
      && (CommitReply<V>(s.commits, c) != Unsettled ==> CommitReply<V>(r.commits, c) == CommitReply(s.commits, c))
      && (id in s.results ==> id in r.results && r.results[id] == s.results[id])
  {
    if ev.TxSettled? {
      SettleKeepsReplies(s, ev.result, c, id);
    } else if ev.DbOpened? || ev.DbOpenFailed? {
      OpenKeepsReplies(s, ev, c);
    } else if ev.Call? {
      CallKeepsReplies(s, ev.req, c);
    } else if ev.TimerFired? {
      CommitKeepsReplies(s, c);
    } else {
      DestroyKeepsReplies(s, ev);
    }
  }

  /** Every promise settles at most once: a commit promise that has settled,
      and a get that has its result, keep their outcome through any events.
      So does the promise of every caller whose outcome is one of these. */
  lemma {:induction false} ReplyIsFinal<K, V>(s: Store<K, V>, evs: seq<Event<K, V>>, c: nat, id: nat)
    requires Valid(s)
    ensures var r := Run(s, evs);
      && (CommitReply<V>(s.commits, c) != Unsettled ==> CommitReply<V>(r.commits, c) == CommitReply(s.commits, c))
      && (id in s.results ==> id in r.results && r.results[id] == s.results[id])
      && (Observe(s, Ticket(c, None)) != Unsettled ==> Observe(r, Ticket(c, None)) == Observe(s, Ticket(c, None)))
      && (id in s.results ==> Observe(r, Ticket(c, Some(id))) == Observe(s, Ticket(c, Some(id))))
    decreases |evs|
  {
    if evs != [] {
      StepKeepsReplies(s, evs[0], c, id);
      StepPreservesValid(s, evs[0]);
      ReplyIsFinal(Step(s, evs[0]), evs[1..], c, id);
    }
  }

  /** `destroy()` keeps the invariant: while the database opens it only
      joins the waiters; on an open one no commit has rejected yet. */
  lemma DestroyCallPreservesValid<K, V>(s: Store<K, V>)
    requires Valid(s)
    ensures Valid(Destroy(s).0)
  {
    var s' := Destroy(s).0;
    GetIdsOkFrame(s, s');
    if s.db.Opening? {
      forall i | 0 <= i < |s.waiters|
        ensures s'.waiters[i] == s.waiters[i]
      {
      }
      assert s'.waiters[|s.waiters|] == DestroyWaiter;
    }
  }

  /** The deletion settling keeps the invariant. */
  lemma FinishDeletePreservesValid<K, V>(s: Store<K, V>, failure: Option<string>)
    requires Valid(s)
    ensures Valid(FinishDelete(s, failure))
  {
    GetIdsOkFrame(s, FinishDelete(s, failure));
  }

  lemma DestroyPreservesValid<K, V>(s: Store<K, V>, ev: Event<K, V>)
    requires Valid(s) && (ev.DestroyCalled? || ev.DeleteSucceeded? || ev.DeleteErrored?)
    ensures Valid(Step(s, ev))
  {
    match ev
    case DestroyCalled => DestroyCallPreservesValid(s);
    case DeleteSucceeded => FinishDeletePreservesValid(s, None);
    case DeleteErrored(cause) => FinishDeletePreservesValid(s, Some(cause));
  }

  lemma QueuePreservesValid<K, V>(s: Store<K, V>, ev: Event<K, V>)
    requires Valid(s) && (ev.Call? || ev.TimerFired? || ev.TxSettled?)
    ensures Valid(Step(s, ev))
  {
    match ev
    case Call(req) => CallPreservesValid(s, req);
    case TimerFired => CommitPreservesValid(s);
    case TxSettled(res) => SettlePreservesValid(s, res);
  }

  lemma StepPreservesValid<K, V>(s: Store<K, V>, ev: Event<K, V>)
    requires Valid(s)
    ensures Valid(Step(s, ev))
  {
    if ev.Call? || ev.TimerFired? || ev.TxSettled? {
      QueuePreservesValid(s, ev);
    } else if ev.DbOpened? || ev.DbOpenFailed? {
      OpenPreservesValid(s, ev);
    } else {
      DestroyPreservesValid(s, ev);
    }
  }

  /** Every state reachable from a valid state is valid. */
  lemma {:induction false} RunPreservesValid<K, V>(s: Store<K, V>, evs: seq<Event<K, V>>)
    requires Valid(s)
    ensures Valid(Run(s, evs))
    decreases |evs|
  {
    if evs != [] {
      StepPreservesValid(s, evs[0]);
      RunPreservesValid(Step(s, evs[0]), evs[1..]);
    }
  }

  // ---------------------------------------------------------------------
  // Calls: one action each, all joining the same commit

  /** Each call appends exactly one action, matching the request, to the end
      of the queue; the earlier entries stay as they were. */
  lemma CallAppendsOne<K, V>(s: Store<K, V>, req: Request<K, V>)
    ensures var s' := CallRequest(s, req).0;
      && |s'.queue| == |s.queue| + 1
      && s'.queue[..|s.queue|] == s.queue
      && Matches(s'.queue[|s.queue|], req)
  {
    var s' := CallRequest(s, req).0;
    assert s'.queue[..|s.queue|] == s.queue;
  }

  /** `_getOrStartCommit` shares one commit: it hands out the pending commit
      when there is one, and otherwise starts a new debouncing commit no
      caller held before. Calling it again hands out the same commit and
      changes nothing. The handed-out commit has not been issued, or it has
      rejected with the database's error, and it is the only commit not yet
      issued. */
  lemma GetOrStartCommitShares<K, V>(s: Store<K, V>)
    requires Valid(s)
    ensures var (s1, c) := GetOrStartCommit(s);
      && GetOrStartCommit(s1) == (s1, c)
      && (s.pending.Some? ==> c == s.pending.value)
      && (s.pending.None? ==> c == |s.commits| && s1.commits[..c] == s.commits && s1.commits[c] == Debouncing)
      && c < |s1.commits| && PendingOk(s1.db, s1.commits[c])
      && (forall i | 0 <= i < |s1.commits| && Unissued(s1.commits[i]) :: i == c)
  {
    var (s1, c) := GetOrStartCommit(s);
    if s.pending.None? {
      forall i | 0 <= i < |s1.commits| && Unissued(s1.commits[i])
        ensures i == c
      {
        if i < |s.commits| {
          assert false;
        }
      }
    }
  }

  /** A burst of calls appends its actions to the queue in call order and
      leaves the database, its contents, the issued transactions and the
      settled results alone. */
  lemma {:induction false} BurstAppendsInOrder<K, V>(s: Store<K, V>, reqs: seq<Request<K, V>>)
    ensures var r := EnqueueAll(s, reqs);
      && |r.1| == |reqs|
      && |r.0.queue| == |s.queue| + |reqs|
      && r.0.queue[..|s.queue|] == s.queue
      && (forall i | 0 <= i < |reqs| :: Matches(r.0.queue[|s.queue| + i], reqs[i]))
      && r.0.db == s.db && r.0.disk == s.disk && r.0.inflight == s.inflight && r.0.results == s.results
      && r.0.waiters == s.waiters
    decreases |reqs|
  {
    BurstKeepsFrame(s, reqs);
    if reqs != [] {
      var init := reqs[..|reqs| - 1];
      BurstAppendsInOrder(s, init);
      var s1 := EnqueueAll(s, init).0;
      var s2 := EnqueueAll(s, reqs).0;
      var last := reqs[|reqs| - 1];
      assert s2 == CallRequest(s1, last).0;
      CallAppendsOne(s1, last);
      assert s2.queue[..|s1.queue|] == s1.queue;
      forall i | 0 <= i < |reqs|
        ensures Matches(s2.queue[|s.queue| + i], reqs[i])
      {
        if i < |init| {
          assert s2.queue[|s.queue| + i] == s1.queue[|s.queue| + i];
        }
      }
      assert s2.queue[..|s.queue|] == s1.queue[..|s.queue|];
    }
  }

  /** A burst of calls touches only the queue, the commits and the get
      identity counter. */
  lemma {:induction false} BurstKeepsFrame<K, V>(s: Store<K, V>, reqs: seq<Request<K, V>>)
    ensures var r := EnqueueAll(s, reqs).0;
      && r.db == s.db && r.disk == s.disk && r.inflight == s.inflight && r.results == s.results
      && r.waiters == s.waiters
    decreases |reqs|
  {
    if reqs != [] {
      BurstKeepsFrame(s, reqs[..|reqs| - 1]);
    }
  }

  /** A burst of calls made while no commit is pending starts one commit and
      every call of the burst joins it; while a commit is pending, every call
      joins that one. Each caller holds a ticket for its own action. */
  lemma {:induction false} BurstSharesCommit<K, V>(s: Store<K, V>, reqs: seq<Request<K, V>>)
    ensures var r := EnqueueAll(s, reqs);
      && |r.1| == |reqs| && |r.0.queue| == |s.queue| + |reqs|
      && NextCommit(r.0) == NextCommit(s)
      && (reqs != [] ==> r.0.pending == Some(NextCommit(s)))
      && r.0.commits == (if s.pending.None? && reqs != [] then s.commits + [Debouncing] else s.commits)
      && (forall i | 0 <= i < |reqs| :: r.1[i] == TicketFor(NextCommit(s), r.0.queue[|s.queue| + i]))
    decreases |reqs|
  {
    if reqs != [] {
      var init := reqs[..|reqs| - 1];
      BurstSharesCommit(s, init);
      BurstAppendsInOrder(s, init);
      var r1 := EnqueueAll(s, init);
      var r2 := EnqueueAll(s, reqs);
      var t := CallRequest(r1.0, reqs[|reqs| - 1]).1;
      assert r2.1 == r1.1 + [t];
      CallAppendsOne(r1.0, reqs[|reqs| - 1]);
      forall i | 0 <= i < |reqs|
        ensures r2.1[i] == TicketFor(NextCommit(s), r2.0.queue[|s.queue| + i])
      {
        assert r2.0.queue[..|r1.0.queue|] == r1.0.queue;
        if i < |init| {
          assert r2.0.queue[|s.queue| + i] == r1.0.queue[|s.queue| + i];
        }
      }
    }
  }

  /** A burst of calls keeps the invariant. */
  lemma {:induction false} BurstPreservesValid<K, V>(s: Store<K, V>, reqs: seq<Request<K, V>>)
    requires Valid(s)
    ensures Valid(EnqueueAll(s, reqs).0)
    decreases |reqs|
  {
    if reqs != [] {
      BurstPreservesValid(s, reqs[..|reqs| - 1]);
      CallPreservesValid(EnqueueAll(s, reqs[..|reqs| - 1]).0, reqs[|reqs| - 1]);
    }
  }

  // ---------------------------------------------------------------------
  // A successful commit cycle

  /** One commit cycle on an open store with no other transaction in flight:
      the commit fires, issues the whole queue, and its transaction completes.
      The queue's gets have unique identities, each resolves with what the
      fold read for it, the commit resolves and the store is idle again. */
  lemma CompleteCycle<K, V>(s: Store<K, V>)
    requires Valid(s) && s.db == Open && Armed(s) && s.inflight == []
    ensures var s2 := Settle(Commit(s), Complete);
      var applied := Fold(s.disk, s.queue);
      && UniqueGetIds(s.queue)
      && s2.queue == [] && s2.pending == None && s2.inflight == []
      && s2.disk == applied.contents
      && CommitReply<V>(s2.commits, s.pending.value) == Resolved(None)
      && (forall id | id in GetIds(s.queue) :: id in s2.results && s2.results[id] == Resolved(applied.results[id]))
  {
    QueuedGetIdsUnique(s);
    var c := s.pending.value;
    var s1 := Commit(s);
    assert s1.inflight == [Tx(c, s.queue)] && s1.commits == s.commits[c := Issued];
    var s2 := Settle(s1, Complete);
    assert s2.commits == s.commits[c := Committed];
  }

  /** Without an issued transaction, the queued gets have unique identities. */
  lemma QueuedGetIdsUnique<K, V>(s: Store<K, V>)
    requires GetIdsOk(s) && s.inflight == []
    ensures UniqueGetIds(s.queue)
  {
    var o := Outstanding(s);
    assert Flatten(s.inflight) == [];
    assert o == s.queue;
    forall i, j | 0 <= i < j < |s.queue| && s.queue[i].Get? && s.queue[j].Get?
      ensures s.queue[i].id != s.queue[j].id
    {
      assert o[i].id < o[j].id;
    }
  }

  /** A burst of calls on a store with no pending commit leaves one armed
      commit whose queue is the burst, in call order, each call holding a
      ticket for its own action. */
  lemma BurstOnIdleStore<K, V>(s: Store<K, V>, reqs: seq<Request<K, V>>)
    requires Valid(s) && s.pending.None? && reqs != []
    ensures var (s1, ts) := EnqueueAll(s, reqs);
      && Valid(s1) && Armed(s1) && s1.pending == Some(|s.commits|)
      && s1.db == s.db && s1.disk == s.disk && s1.inflight == s.inflight
      && |ts| == |reqs| && |s1.queue| == |reqs|
      && (forall i | 0 <= i < |reqs| :: Matches(s1.queue[i], reqs[i]))
      && (forall i | 0 <= i < |reqs| :: ts[i] == TicketFor(|s.commits|, s1.queue[i]))
  {
    var (s1, ts) := EnqueueAll(s, reqs);
    BurstAppendsInOrder(s, reqs);
    BurstSharesCommit(s, reqs);
    BurstPreservesValid(s, reqs);
    assert s.queue == [];
    forall i | 0 <= i < |reqs|
      ensures Matches(s1.queue[i], reqs[i]) && ts[i] == TicketFor(|s.commits|, s1.queue[i])
    {
      assert s1.queue[|s.queue| + i] == s1.queue[i];
    }
  }

  /** What the caller of the `i`-th queued action sees once the commit cycle
      has completed: a get resolves with its key's value after every earlier
      action of the batch, a set or delete resolves. */
  lemma ObserveAfterCycle<K, V>(s: Store<K, V>, i: nat)
    requires Valid(s) && s.db == Open && Armed(s) && s.inflight == []
    requires i < |s.queue|
    ensures var s2 := Settle(Commit(s), Complete);
      var a := s.queue[i];
      Observe(s2, TicketFor(s.pending.value, a))
        == Resolved(if a.Get? then ValueAfter(s.disk, s.queue[..i], a.key) else None)
  {
    CompleteCycle(s);
    if s.queue[i].Get? {
      GetSeesEarlierActions(s.disk, s.queue, i);
      assert s.queue[i].id in GetIds(s.queue);
    }
  }

  /** Read-your-own-write across a whole commit cycle: a burst of calls on an
      open, idle store, its commit firing and its transaction completing.
      Each get resolves with the value its key holds after every earlier
      call of the burst, each set and delete resolves, the database holds
      the burst's last write of every key, and the store is idle again. */
  lemma BatchReadsOwnWrites<K, V>(s: Store<K, V>, reqs: seq<Request<K, V>>)
    requires Valid(s) && s.db == Open && s.pending.None? && s.inflight == []
    requires reqs != []
    ensures var (s1, ts) := EnqueueAll(s, reqs);
      var s2 := Settle(Commit(s1), Complete);
      && |ts| == |reqs| && |s1.queue| == |reqs|
      && (forall i | 0 <= i < |reqs| :: Matches(s1.queue[i], reqs[i]))
      && s2.queue == [] && s2.pending == None && s2.inflight == []
      && (forall k :: Lookup(s2.disk, k) == ValueAfter(s.disk, s1.queue, k))
      && (forall i | 0 <= i < |reqs| && reqs[i].GetReq? ::
            Observe(s2, ts[i]) == Resolved(ValueAfter(s.disk, s1.queue[..i], reqs[i].key)))
      && (forall i | 0 <= i < |reqs| && !reqs[i].GetReq? :: Observe(s2, ts[i]) == Resolved(None))
  {
    var (s1, ts) := EnqueueAll(s, reqs);
    BurstOnIdleStore(s, reqs);
    CompleteCycle(s1);
    var s2 := Settle(Commit(s1), Complete);
    forall k
      ensures Lookup(s2.disk, k) == ValueAfter(s.disk, s1.queue, k)
    {
      FoldContents(s.disk, s1.queue, k);
    }
    forall i | 0 <= i < |reqs|
      ensures Observe(s2, ts[i])
        == Resolved(if reqs[i].GetReq? then ValueAfter(s.disk, s1.queue[..i], reqs[i].key) else None)
    {
      ObserveAfterCycle(s1, i);
    }
  }

  /** The gets of the oldest issued batch have unique identities. */
  lemma HeadBatchUnique<K, V>(s: Store<K, V>)
    requires GetIdsOk(s) && s.inflight != []
    ensures UniqueGetIds(s.inflight[0].actions)
  {
    var h := s.inflight[0].actions;
    var o := Outstanding(s);
    OutstandingHead(s);
    forall i, j | 0 <= i < j < |h| && h[i].Get? && h[j].Get?
      ensures h[i].id != h[j].id
    {
      assert o[i] == h[i] && o[j] == h[j];
    }
  }

  /** Read-your-own-write for any issued batch, whichever way its commit got
      the connection and however many transactions were issued before it:
      when it is the oldest and completes, the caller of its `i`-th action
      sees a get resolve with its key's value after every earlier action of
      the batch, applied to the database as the earlier transactions left
      it, and a set or delete resolve. Every key then holds the batch's last
      write of it. */
  lemma IssuedBatchReadsOwnWrites<K, V>(s: Store<K, V>, i: nat)
    requires Valid(s) && s.inflight != [] && i < |s.inflight[0].actions|
    ensures var tx := s.inflight[0];
      var s1 := Settle(s, Complete);
      var a := tx.actions[i];
      && Observe(s1, TicketFor(tx.commit, a))
           == Resolved(if a.Get? then ValueAfter(s.disk, tx.actions[..i], a.key) else None)
      && (forall k :: Lookup(s1.disk, k) == ValueAfter(s.disk, tx.actions, k))
  {
    var tx := s.inflight[0];
    var s1 := Settle(s, Complete);
    HeadBatchUnique(s);
    assert tx.commit < |s.commits|;
    assert s1.commits[tx.commit] == Committed;
    forall k
      ensures Lookup(s1.disk, k) == ValueAfter(s.disk, tx.actions, k)
    {
      FoldContents(s.disk, tx.actions, k);
    }
    if tx.actions[i].Get? {
      GetSeesEarlierActions(s.disk, tx.actions, i);
      assert tx.actions[i].id in GetIds(tx.actions);
    }
  }

  /** A burst of calls on a new instance leaves commit 0 armed, nothing
      issued and nothing waiting. */
  lemma FreshStoreBurst<K, V>(name: string, disk: map<K, V>, reqs: seq<Request<K, V>>)
    requires reqs != []
    ensures var r := EnqueueAll(Init(name, disk), reqs);
      && Valid(r.0) && Armed(r.0) && r.0.pending == Some(0)
      && r.0.db == Opening && r.0.disk == disk && r.0.inflight == [] && r.0.waiters == []
      && |r.1| == |reqs| && |r.0.queue| == |reqs|
      && (forall i | 0 <= i < |reqs| :: Matches(r.0.queue[i], reqs[i]))
      && (forall i | 0 <= i < |reqs| :: r.1[i] == TicketFor(0, r.0.queue[i]))
  {
    var s0 := Init(name, disk);
    BurstOnIdleStore(s0, reqs);
    BurstAppendsInOrder(s0, reqs);
  }

  /** A burst of calls on a new instance, its commit firing while the
      database opens: once open, the whole burst is issued as the only
      transaction, over the database as it was. */
  lemma FreshStoreIssuesBurst<K, V>(name: string, disk: map<K, V>, reqs: seq<Request<K, V>>)
    requires reqs != []
    ensures var s1 := EnqueueAll(Init(name, disk), reqs).0;
      var s3 := OpenSucceeded(Commit(s1));
      Valid(s3) && s3.inflight == [Tx(0, s1.queue)] && s3.disk == disk
  {
    FreshStoreBurst(name, disk, reqs);
    OpenIssuesArmedBatch(EnqueueAll(Init(name, disk), reqs).0);
  }

  /** An armed commit on an opening database with nothing else waiting: it
      fires, waits, and once the database opens issues the whole queue. */
  lemma OpenIssuesArmedBatch<K, V>(s: Store<K, V>)
    requires Valid(s) && Armed(s) && s.db == Opening && s.waiters == []
    ensures var s3 := OpenSucceeded(Commit(s));
      Valid(s3) && s3.inflight == s.inflight + [Tx(s.pending.value, s.queue)] && s3.disk == s.disk
  {
    var s2 := Commit(s);
    CommitPreservesValid(s);
    assert s2.waiters == [CommitWaiter(s.pending.value)] && s2.queue == s.queue && s2.inflight == s.inflight;
    OpenRunsWaitersInOrder(s2, 0);
    OpenPreservesValid(s2, DbOpened);
  }

  /** Read-your-own-write on a new instance, whose first batch waits for the
      database to open: a burst of calls, its commit firing, the open
      succeeding and the transaction completing. Each get resolves with
      the value its key holds after every earlier call of the burst, each set
      and delete resolves, and the database holds the burst's last write of
      every key. */
  lemma FreshStoreReadsOwnWrites<K, V>(name: string, disk: map<K, V>, reqs: seq<Request<K, V>>)
    requires reqs != []
    ensures var (s1, ts) := EnqueueAll(Init(name, disk), reqs);
      var s4 := Settle(OpenSucceeded(Commit(s1)), Complete);
      && |ts| == |reqs| && |s1.queue| == |reqs|
      && (forall i | 0 <= i < |reqs| :: Matches(s1.queue[i], reqs[i]))
      && (forall k :: Lookup(s4.disk, k) == ValueAfter(disk, s1.queue, k))
      && (forall i | 0 <= i < |reqs| && reqs[i].GetReq? ::
            Observe(s4, ts[i]) == Resolved(ValueAfter(disk, s1.queue[..i], reqs[i].key)))
      && (forall i | 0 <= i < |reqs| && !reqs[i].GetReq? :: Observe(s4, ts[i]) == Resolved(None))
  {
    var (s1, ts) := EnqueueAll(Init(name, disk), reqs);
    var s3 := OpenSucceeded(Commit(s1));
    FreshStoreBurst(name, disk, reqs);
    FreshStoreIssuesBurst(name, disk, reqs);
    IssuedBatchReadsOwnWrites(s3, 0);
    forall i | 0 <= i < |reqs|
      ensures Observe(Settle(s3, Complete), ts[i])
        == Resolved(if reqs[i].GetReq? then ValueAfter(disk, s1.queue[..i], reqs[i].key) else None)
    {
      IssuedBatchReadsOwnWrites(s3, i);
    }
  }

  /** The queue is taken when the commit runs, not when it starts: a call
      made while the commit awaits the opening database joins that commit.
      Once the database has opened, the commit issues the whole queue,
      that call included, unless a `destroy()` was already waiting on the
      open: that one closes the connection first and the commit rejects,
      the call with it, with the closed-connection error. */
  lemma WaitingCommitCollectsLaterCalls<K, V>(s: Store<K, V>, req: Request<K, V>)
    requires Valid(s) && Armed(s) && s.db == Opening
    ensures var c := s.pending.value;
      var s1 := Commit(s);
      var (s2, t) := CallRequest(s1, req);
      var s3 := OpenSucceeded(s2);
      && s1.commits[c] == AwaitingOpen && t.commit == c
      && |s2.queue| == |s.queue| + 1 && s2.queue[..|s.queue|] == s.queue
      && Matches(s2.queue[|s.queue|], req)
      && (DestroyWaiter !in s.waiters ==>
            s3.inflight == s.inflight + [Tx(c, s2.queue)] && s3.queue == [] && s3.pending == None)
      && (DestroyWaiter in s.waiters ==>
            Observe(s3, t) == Rejected(ClosedConnection) && s3.queue == s2.queue && s3.pending == Some(c))
  {
    var c := s.pending.value;
    var s1 := Commit(s);
    var (s2, t) := CallRequest(s1, req);
    CallAppendsOne(s1, req);
    CommitPreservesValid(s);
    CallPreservesValid(s1, req);
    var k := |s.waiters|;
    assert s2.waiters == s.waiters + [CommitWaiter(c)];
    assert s2.waiters[..k] == s.waiters;
    OpenRunsWaitersInOrder(s2, k);
    assert t == TicketFor(c, s2.queue[|s.queue|]);
  }

  // ---------------------------------------------------------------------
  // A failed transaction does not poison the store

  /** The commit pointer is reset before the transaction's outcome is known:
      when that transaction aborts, the commit rejects with the transaction's
      error and the database is unchanged, yet the next call starts a new
      debouncing commit. */
  lemma AbortThenFreshCommit<K, V>(s: Store<K, V>, cause: string, served: nat, req: Request<K, V>)
    requires Valid(s) && s.db == Open && Armed(s) && s.inflight == []
    ensures var c := s.pending.value;
      var s1 := Commit(s);
      var s2 := Settle(s1, Abort(cause, served));
      var (s3, t) := CallRequest(s2, req);
      && s1.pending == None && s1.queue == []
      && s2.disk == s.disk
      && CommitReply<V>(s2.commits, c) == Rejected(TransactionError(cause))
      && t.commit != c
      && s3.pending == Some(t.commit) && s3.commits[t.commit] == Debouncing
      && s3.queue == [s3.queue[0]] && Matches(s3.queue[0], req)
  {
    var s1 := Commit(s);
    var s2 := Settle(s1, Abort(cause, served));
    CallAppendsOne(s2, req);
  }

  // ---------------------------------------------------------------------
  // A rejected database promise poisons the store

  /** When the commit awaits a database promise that has rejected (the open
      failed, or the instance was destroyed), nothing is applied, the commit
      rejects with that error and stays the pending commit, and every queued
      call, gets included through their race, rejects with the same error. */
  lemma FailedCommitRejectsQueued<K, V>(s: Store<K, V>)
    requires Valid(s) && Armed(s) && DbError(s.db).Some?
    ensures var s' := Commit(s);
      var e := DbError(s.db).value;
      && Poisoned(s', e)
      && s'.disk == s.disk && s'.inflight == s.inflight && s'.queue == s.queue && s'.pending == s.pending
      && (forall i | 0 <= i < |s.queue| :: Observe(s', TicketFor(s.pending.value, s.queue[i])) == Rejected(e))
  {
    var s' := Commit(s);
    var o := Outstanding(s);
    forall i | 0 <= i < |s.queue| && s.queue[i].Get?
      ensures s.queue[i].id !in s'.results
    {
      assert o[|Flatten(s.inflight)| + i] == s.queue[i];
    }
  }

  /** A poisoned store stays poisoned by every event. */
  lemma StepKeepsPoison<K, V>(s: Store<K, V>, ev: Event<K, V>, e: Error)
    requires Valid(s) && Poisoned(s, e)
    ensures Poisoned(Step(s, ev), e) && Step(s, ev).pending == s.pending
  {
    var s' := Step(s, ev);
    match ev
    case Call(req) =>
      assert s'.commits == s.commits;
    case TimerFired =>
      assert !Armed(s);
    case TxSettled(res) =>
      if s.inflight != [] {
        var c := s.inflight[0].commit;
        assert s.commits[c].Issued?;
        assert s'.commits == Mark(s.commits, c, s'.commits[c]);
      }
    case _ =>
      assert s'.commits == s.commits && s'.pending == s.pending;
  }

  /** The rejected commit stays the pending commit forever: the store never
      retries, whatever happens next. */
  lemma {:induction false} PoisonIsPermanent<K, V>(s: Store<K, V>, evs: seq<Event<K, V>>, e: Error)
    requires Valid(s) && Poisoned(s, e)
    ensures Poisoned(Run(s, evs), e) && Run(s, evs).pending == s.pending
    decreases |evs|
  {
    if evs != [] {
      StepKeepsPoison(s, evs[0], e);
      StepPreservesValid(s, evs[0]);
      PoisonIsPermanent(Step(s, evs[0]), evs[1..], e);
    }
  }

  /** On a poisoned store every call rejects at once with the cached error,
      and its action stays queued behind the rejected commit. */
  lemma PoisonedRejectsCall<K, V>(s: Store<K, V>, req: Request<K, V>, e: Error)
    requires Valid(s) && Poisoned(s, e)
    ensures var (s', t) := CallRequest(s, req);
      && Observe(s', t) == Rejected(e)
      && s'.pending == s.pending && |s'.queue| == |s.queue| + 1
  {
  }

  /** After the database promise has rejected and any events at all, a call
      rejects with the identical error once its commit has been tried. */
  lemma PoisonedForever<K, V>(s: Store<K, V>, evs: seq<Event<K, V>>, req: Request<K, V>, e: Error)
    requires Valid(s) && Poisoned(s, e)
    ensures var (s', t) := CallRequest(Run(s, evs), req);
      Observe(s', t) == Rejected(e)
  {
    PoisonIsPermanent(s, evs, e);
    RunPreservesValid(s, evs);
    PoisonedRejectsCall(Run(s, evs), req, e);
  }

  /** While the store is poisoned no event takes anything out of the queue:
      the rejected commit never issues it. */
  lemma StepKeepsPoisonedQueue<K, V>(s: Store<K, V>, ev: Event<K, V>, e: Error)
    requires Valid(s) && Poisoned(s, e)
    ensures |Step(s, ev).queue| >= |s.queue| && Step(s, ev).queue[..|s.queue|] == s.queue
  {
    match ev
    case Call(req) => CallAppendsOne(s, req);
    case TimerFired => assert !Armed(s);
    case DbOpened => assert !s.db.Opening?;
    case DbOpenFailed(cause) => assert !s.db.Opening?;
    case _ =>
  }

  /** What was queued on a poisoned store stays queued, in place, through
      any events. */
  lemma {:induction false} RunKeepsPoisonedQueue<K, V>(s: Store<K, V>, evs: seq<Event<K, V>>, e: Error)
    requires Valid(s) && Poisoned(s, e)
    ensures |Run(s, evs).queue| >= |s.queue| && Run(s, evs).queue[..|s.queue|] == s.queue
    decreases |evs|
  {
    if evs != [] {
      var s1 := Step(s, evs[0]);
      StepKeepsPoisonedQueue(s, evs[0], e);
      StepKeepsPoison(s, evs[0], e);
      StepPreservesValid(s, evs[0]);
      RunKeepsPoisonedQueue(s1, evs[1..], e);
      var q := Run(s, evs).queue;
      assert q[..|s.queue|] == q[..|s1.queue|][..|s.queue|];
    }
  }

  /** A queued call whose commit has rejected is rejected, a get included
      through its race against the commit, and stays rejected with the same
      error through any events: the get never gains a result of its own. */
  lemma RaceRejectionIsFinal<K, V>(s: Store<K, V>, evs: seq<Event<K, V>>, i: nat)
    requires Valid(s) && s.pending.Some? && i < |s.queue|
    requires CommitReply<V>(s.commits, s.pending.value).Rejected?
    ensures var t := TicketFor(s.pending.value, s.queue[i]);
      && Observe(s, t) == CommitReply(s.commits, s.pending.value)
      && Observe(Run(s, evs), t) == Observe(s, t)
  {
    var p := s.pending.value;
    var e := s.commits[p].err;
    assert Poisoned(s, e);
    PoisonIsPermanent(s, evs, e);
    RunKeepsPoisonedQueue(s, evs, e);
    RunPreservesValid(s, evs);
    var r := Run(s, evs);
    assert r.queue[i] == r.queue[..|s.queue|][i] == s.queue[i];
    QueuedGetsUnsettled(s);
    QueuedGetsUnsettled(r);
  }

  /** Once the database promise has rejected, any call made from then on
      rejects with that error as soon as the commit it joined has fired, or
      with the closed-connection error when a commit already rejected with
      it is still pending. */
  lemma LaterCallRejects<K, V>(s: Store<K, V>, req: Request<K, V>)
    requires Valid(s) && DbError(s.db).Some?
    ensures var (s1, t) := CallRequest(s, req);
      var e := if Poisoned(s, ClosedConnection) then ClosedConnection else DbError(s.db).value;
      Observe(Commit(s1), t) == Rejected(e)
  {
    var (s1, t) := CallRequest(s, req);
    CallPreservesValid(s, req);
    var c := s1.pending.value;
    if s1.commits[c].Debouncing? {
      assert Armed(s1);
    }
  }

  /** A rejected database promise stays rejected with the same error: once
      the open has failed or the instance is destroyed, no event changes it. */
  lemma {:induction false} DbStateIsFinal<K, V>(s: Store<K, V>, evs: seq<Event<K, V>>)
    requires DbError(s.db).Some?
    ensures Run(s, evs).db == s.db
    decreases |evs|
  {
    if evs != [] {
      assert Step(s, evs[0]).db == s.db;
      DbStateIsFinal(Step(s, evs[0]), evs[1..]);
    }
  }

  // ---------------------------------------------------------------------
  // What awaits the opening database resumes in order

  /** Waiters that hold no commit leave the queue, the commit pointer, the
      commits and the issued transactions alone. */
  lemma {:induction false} ResumeAllWithoutCommit<K, V>(s: Store<K, V>)
    requires forall j | 0 <= j < |s.waiters| :: !s.waiters[j].CommitWaiter?
    ensures var r := ResumeAll(s);
      r.commits == s.commits && r.inflight == s.inflight && r.queue == s.queue && r.pending == s.pending
    decreases |s.waiters|
  {
    if s.waiters != [] {
      var r := Resume(s.(waiters := s.waiters[1..]), s.waiters[0]);
      assert r.commits == s.commits && r.inflight == s.inflight && r.queue == s.queue && r.pending == s.pending;
      forall j | 0 <= j < |r.waiters|
        ensures !r.waiters[j].CommitWaiter?
      {
        assert r.waiters[j] == s.waiters[j + 1];
      }
      ResumeAllWithoutCommit(r);
    }
  }

  /** The one waiting commit, at position `k`, resumes after every waiter
      before it. With an open connection it issues the whole queue, unless
      a destroy earlier in line has closed that connection: then it rejects
      with the closed-connection error and nothing is reset. After a failed
      open it rejects with the open error. */
  lemma {:induction false} ResumeAllOneCommit<K, V>(s: Store<K, V>, k: nat)
    requires !s.db.Opening?
    requires k < |s.waiters| && s.waiters[k].CommitWaiter?
    requires forall j | 0 <= j < |s.waiters| && j != k :: !s.waiters[j].CommitWaiter?
    ensures var c := s.waiters[k].commit;
      var r := ResumeAll(s);
      && (s.db.Open? && DestroyWaiter !in s.waiters[..k] ==>
            && r.inflight == s.inflight + [Tx(c, s.queue)] && r.queue == [] && r.pending == None
            && r.commits == Mark(s.commits, c, Issued))
      && (s.db.Destroyed? || (s.db.Open? && DestroyWaiter in s.waiters[..k]) ==>
            && r.inflight == s.inflight && r.queue == s.queue && r.pending == s.pending
            && r.commits == Mark(s.commits, c, CommitRejected(ClosedConnection)))
      && (s.db.Failed? ==>
            && r.inflight == s.inflight && r.queue == s.queue && r.pending == s.pending
            && r.commits == Mark(s.commits, c, CommitRejected(s.db.err)))
    decreases |s.waiters|
  {
    var r1 := Resume(s.(waiters := s.waiters[1..]), s.waiters[0]);
    assert r1.waiters == s.waiters[1..];
    if k == 0 {
      forall j | 0 <= j < |r1.waiters|
        ensures !r1.waiters[j].CommitWaiter?
      {
        assert r1.waiters[j] == s.waiters[j + 1];
      }
      ResumeAllWithoutCommit(r1);
    } else {
      assert s.waiters[0] == DestroyWaiter;
      assert s.waiters[..k][0] == DestroyWaiter;
      assert r1.commits == s.commits && r1.inflight == s.inflight && r1.queue == s.queue && r1.pending == s.pending;
      assert r1.waiters[k - 1] == s.waiters[k];
      forall j | 0 <= j < |r1.waiters| && j != k - 1
        ensures !r1.waiters[j].CommitWaiter?
      {
        assert r1.waiters[j] == s.waiters[j + 1];
      }
      ResumeAllOneCommit(r1, k - 1);
    }
  }

  /** When the open settles, the commit waiting at position `k` resumes
      after every waiter before it. With no destroy before it in line, a
      successful open issues the whole queue as one transaction; with one,
      that destroy closes the connection first and every queued call rejects
      with the closed-connection error, which poisons the store. A failed
      open rejects the commit and its queued calls with the open error. */
  lemma OpenRunsWaitersInOrder<K, V>(s: Store<K, V>, k: nat)
    requires Valid(s) && s.db.Opening?
    requires k < |s.waiters| && s.waiters[k].CommitWaiter?
    ensures s.pending == Some(s.waiters[k].commit)
    ensures var c := s.waiters[k].commit;
      var r := OpenSucceeded(s);
      DestroyWaiter !in s.waiters[..k] ==>
        && r.inflight == s.inflight + [Tx(c, s.queue)] && r.queue == [] && r.pending == None
        && c < |r.commits| && r.commits[c] == Issued
    ensures var c := s.waiters[k].commit;
      var r := OpenSucceeded(s);
      DestroyWaiter in s.waiters[..k] ==>
        && r.db == Destroyed && Poisoned(r, ClosedConnection)
        && r.inflight == s.inflight && r.queue == s.queue && r.pending == s.pending
        && (forall i | 0 <= i < |s.queue| :: Observe(r, TicketFor(c, s.queue[i])) == Rejected(ClosedConnection))
  {
    var c := s.waiters[k].commit;
    forall j | 0 <= j < |s.waiters| && j != k
      ensures !s.waiters[j].CommitWaiter?
    {
    }
    var s1 := s.(db := Open);
    ResumeAllOneCommit(s1, k);
    var r := OpenSucceeded(s);
    if DestroyWaiter in s.waiters[..k] {
      assert DestroyWaiter in s.waiters;
      QueuedGetsUnsettled(s);
      forall i | 0 <= i < |s.queue|
        ensures Observe(r, TicketFor(c, s.queue[i])) == Rejected(ClosedConnection)
      {
        if s.queue[i].Get? {
          assert s.queue[i].id !in s.results;
        }
      }
    }
  }

  /** When the open fails, the waiting commit rejects with the open error
      and stays pending, so the store is poisoned with that error, and every
      queued call, gets included, rejects with it. */
  lemma FailedOpenRejectsWaitingCommit<K, V>(s: Store<K, V>, k: nat, cause: string)
    requires Valid(s) && s.db.Opening?
    requires k < |s.waiters| && s.waiters[k].CommitWaiter?
    ensures s.pending == Some(s.waiters[k].commit)
    ensures var r := OpenFailedWith(s, cause);
      && Poisoned(r, OpenError(s.name, cause)) && r.pending == s.pending
      && r.queue == s.queue && r.inflight == s.inflight
      && (forall i | 0 <= i < |s.queue| ::
            Observe(r, TicketFor(s.waiters[k].commit, s.queue[i])) == Rejected(OpenError(s.name, cause)))
  {
    forall j | 0 <= j < |s.waiters| && j != k
      ensures !s.waiters[j].CommitWaiter?
    {
    }
    ResumeAllOneCommit(s.(db := Failed(OpenError(s.name, cause))), k);
    var r := OpenFailedWith(s, cause);
    QueuedGetsUnsettled(s);
    forall i | 0 <= i < |s.queue|
      ensures Observe(r, TicketFor(s.waiters[k].commit, s.queue[i])) == Rejected(OpenError(s.name, cause))
    {
      if s.queue[i].Get? {
        assert s.queue[i].id !in s.results;
      }
    }
  }

  /** No queued get has settled yet. */
  lemma QueuedGetsUnsettled<K, V>(s: Store<K, V>)
    requires GetIdsOk(s)
    ensures forall i | 0 <= i < |s.queue| && s.queue[i].Get? :: s.queue[i].id !in s.results
  {
    var o := Outstanding(s);
    forall i | 0 <= i < |s.queue| && s.queue[i].Get?
      ensures s.queue[i].id !in s.results
    {
      assert o[|Flatten(s.inflight)| + i] == s.queue[i];
    }
  }

  /** `set` then `destroy()` while the database opens, with the debounce
      expiring before the open succeeds: the destroy began waiting first, so
      it closes the connection before the commit creates its transaction.
      The set rejects with the closed-connection error, the store stays
      poisoned with it, and a later call rejects with it too, not with the
      destroyed error. */
  lemma DestroyBeforeCommitPoisons<K, V>(name: string, disk: map<K, V>, k: K, v: V, req: Request<K, V>)
    ensures var s0 := Init(name, disk);
      var (s1, t) := CallRequest(s0, SetReq(k, v));
      var s4 := OpenSucceeded(Commit(Destroy(s1).0));
      var (s5, t5) := CallRequest(s4, req);
      && s4.db == Destroyed && s4.deletion == Deleting && s4.inflight == []
      && Observe(s4, t) == Rejected(ClosedConnection)
      && Observe(s5, t5) == Rejected(ClosedConnection)
  {
    var s4 := DestroyBeforeCommitState(name, disk, k, v);
    var (s5, t5) := CallRequest(s4, req);
    assert s5.pending == Some(0) && s5.commits == s4.commits && s5.results == map[];
  }

  /** The store after the events of `DestroyBeforeCommitPoisons`, step by step. */
  lemma DestroyBeforeCommitState<K, V>(name: string, disk: map<K, V>, k: K, v: V) returns (s4: Store<K, V>)
    ensures s4 == OpenSucceeded(Commit(Destroy(CallRequest(Init(name, disk), SetReq(k, v)).0).0))
    ensures s4 == Store(name, Destroyed, disk, [Set(k, v)], Some(0), [CommitRejected(ClosedConnection)],
                        [], map[], 0, Deleting, [])
    ensures CallRequest(Init(name, disk), SetReq(k, v)).1 == Ticket(0, None)
  {
    var s3 := DestroyThenTimer(name, disk, k, v);
    var o := s3.(db := Open);
    var d := Resume(o.(waiters := [CommitWaiter(0)]), DestroyWaiter);
    assert d == o.(db := Destroyed, deletion := Deleting, waiters := [CommitWaiter(0)]);
    assert o.waiters[1..] == [CommitWaiter(0)] && d.waiters[1..] == [];
    var r := Resume(d.(waiters := []), CommitWaiter(0));
    assert r == d.(commits := [CommitRejected(ClosedConnection)], waiters := []);
    assert ResumeAll(d) == ResumeAll(r) == r;
    s4 := OpenSucceeded(s3);
    assert s4 == ResumeAll(o) == ResumeAll(d);
  }

  /** A set, then `destroy()`, then the debounce expiring, on an opening database. */
  lemma DestroyThenTimer<K, V>(name: string, disk: map<K, V>, k: K, v: V) returns (s3: Store<K, V>)
    ensures s3 == Commit(Destroy(CallRequest(Init(name, disk), SetReq(k, v)).0).0)
    ensures s3 == Store(name, Opening, disk, [Set(k, v)], Some(0), [AwaitingOpen],
                        [], map[], 0, NotRequested, [DestroyWaiter, CommitWaiter(0)])
    ensures CallRequest(Init(name, disk), SetReq(k, v)).1 == Ticket(0, None)
  {
    var s0 := Init(name, disk);
    var (s1, t) := CallRequest(s0, SetReq(k, v));
    assert s1 == s0.(queue := [Set(k, v)], pending := Some(0), commits := [Debouncing]) && t == Ticket(0, None);
    var s2 := Destroy(s1).0;
    assert s2 == s1.(waiters := [DestroyWaiter]);
    s3 := Commit(s2);
  }

  /** The same calls with the debounce expiring before `destroy()` is
      called: the commit began waiting first, so its batch is issued before
      the connection closes. The set resolves once its transaction
      completes, and the deletion then erases the database. */
  lemma CommitBeforeDestroyIssues<K, V>(name: string, disk: map<K, V>, k: K, v: V)
    ensures var s0 := Init(name, disk);
      var (s1, t) := CallRequest(s0, SetReq(k, v));
      var s2 := Commit(s1);
      var s3 := Destroy(s2).0;
      var s4 := OpenSucceeded(s3);
      var s5 := Settle(s4, Complete);
      var s6 := FinishDelete(s5, None);
      && s4.db == Destroyed && s4.inflight == [Tx(0, [Set(k, v)])]
      && s5.disk == disk[k := v] && Observe(s5, t) == Resolved(None)
      && s6.disk == map[] && DestroyReply<K, V>(s6) == Resolved(None)
  {
    var s4 := CommitThenDestroyState(name, disk, k, v);
    var s5 := Settle(s4, Complete);
    assert Fold(disk, [Set(k, v)]).contents == disk[k := v];
    assert s5.commits == [Committed] && s5.inflight == [];
  }

  /** The store after a set, the debounce expiring and `destroy()`, all
      while opening, once the database opens. */
  lemma CommitThenDestroyState<K, V>(name: string, disk: map<K, V>, k: K, v: V) returns (s4: Store<K, V>)
    ensures s4 == OpenSucceeded(Destroy(Commit(CallRequest(Init(name, disk), SetReq(k, v)).0)).0)
    ensures s4 == Store(name, Destroyed, disk, [], None, [Issued], [Tx(0, [Set(k, v)])],
                        map[], 0, Deleting, [])
    ensures CallRequest(Init(name, disk), SetReq(k, v)).1 == Ticket(0, None)
  {
    var s0 := Init(name, disk);
    var (s1, t) := CallRequest(s0, SetReq(k, v));
    assert s1 == s0.(queue := [Set(k, v)], pending := Some(0), commits := [Debouncing]) && t == Ticket(0, None);
    var s2 := Commit(s1);
    assert s2 == s1.(commits := [AwaitingOpen], waiters := [CommitWaiter(0)]);
    var s3 := Destroy(s2).0;
    assert s3 == s2.(waiters := [CommitWaiter(0), DestroyWaiter]);
    var o := s3.(db := Open);
    var i := Resume(o.(waiters := [DestroyWaiter]), CommitWaiter(0));
    assert i == o.(inflight := [Tx(0, [Set(k, v)])], queue := [], pending := None,
                   commits := [Issued], waiters := [DestroyWaiter]);
    assert o.waiters[1..] == [DestroyWaiter] && i.waiters[1..] == [];
    var r := Resume(i.(waiters := []), DestroyWaiter);
    assert r == i.(db := Destroyed, deletion := Deleting, waiters := []);
    assert ResumeAll(i) == ResumeAll(r) == r;
    s4 := OpenSucceeded(s3);
    assert s4 == ResumeAll(o) == ResumeAll(i);
  }

  // ---------------------------------------------------------------------
  // Destroy

  /** Destroying an open store with no transaction in flight: the database
      promise is replaced by the destroyed rejection, a successful deletion
      erases the contents, and a new instance under the same name starts
      empty: its first get of any key resolves with nothing. */
  lemma DestroyThenFreshStore<K, V>(s: Store<K, V>, k: K)
    requires Valid(s) && s.db == Open && s.inflight == []
    ensures var s1 := Destroy(s).0;
      var s2 := FinishDelete(s1, None);
      var reopened := OpenSucceeded(Init(s.name, s2.disk));
      var (f1, ts) := EnqueueAll(reopened, [GetReq(k)]);
      && s1.db == Destroyed && DbError(s1.db) == Some(DestroyedError)
      && s2.disk == map[] && DestroyReply(s2) == Resolved(None)
      && Observe(Settle(Commit(f1), Complete), ts[0]) == Resolved(None)
  {
    var s2 := FinishDelete(Destroy(s).0, None);
    var reopened := OpenSucceeded(Init(s.name, s2.disk));
    assert Valid(reopened);
    BatchReadsOwnWrites(reopened, [GetReq(k)]);
    var (f1, ts) := EnqueueAll(reopened, [GetReq(k)]);
    assert f1.queue[..0] == [];
  }
  /** Once the deletion has settled, no event changes its outcome, no
      transaction is issued any more, and an erased database stays empty. */
  lemma StepAfterDeletion<K, V>(s: Store<K, V>, ev: Event<K, V>)
    requires Valid(s) && (s.deletion.Erased? || s.deletion.EraseFailed?)
    ensures var s' := Step(s, ev);
      s'.deletion == s.deletion && s'.inflight == [] && s'.disk == s.disk
  {
    assert s.db == Destroyed && s.inflight == [];
    match ev
    case Call(req) =>
      assert CallRequest(s, req).0.inflight == s.inflight;
    case TimerFired =>
      assert Commit(s).inflight == s.inflight;
    case TxSettled(res) =>
      assert Settle(s, res) == s;
    case DbOpened =>
    case DbOpenFailed(cause) =>
    case DestroyCalled =>
      assert Destroy(s).0 == s;
    case DeleteSucceeded =>
      assert FinishDelete(s, None) == s;
    case DeleteErrored(cause) =>
      assert FinishDelete(s, Some(cause)) == s;
  }

  /** The promise of `destroy()` settles once: whatever happens next, its
      outcome stays, and after a successful deletion the database stays empty. */
  lemma {:induction false} DeletionIsFinal<K, V>(s: Store<K, V>, evs: seq<Event<K, V>>)
    requires Valid(s) && DestroyReply<K, V>(s) != Unsettled
    ensures DestroyReply<K, V>(Run(s, evs)) == DestroyReply(s)
    ensures s.deletion.Erased? ==> Run(s, evs).disk == map[]
    decreases |evs|
  {
    if evs != [] {
      StepAfterDeletion(s, evs[0]);
      StepPreservesValid(s, evs[0]);
      DeletionIsFinal(Step(s, evs[0]), evs[1..]);
    }
  }

}

=== FILE: types.dfy ===
/** Shared vocabulary of the idb-kv model: optional values, the errors a
    caller can observe, the entries of the action queue and the state of a
    caller's promise. */
module KvTypes {

  datatype Option<+T> = None | Some(value: T)

  /** The reasons a promise handed out by the store can reject with. */
  datatype Error =
    | OpenError(dbName: string, cause: string)   // the database could not be opened
    | DestroyedError                             // the instance was destroyed
    | TransactionError(cause: string)            // a batch transaction aborted
    | DeleteError(cause: string)                 // erasing the database failed
    | ClosedConnection                           // a transaction was requested on a closed connection

  /** The text of each error, as the store builds it. */
  function Message(e: Error): string
  {
    match e
    case OpenError(name, cause) => "error opening the indexedDB database named " + name + ": " + cause
    case DestroyedError => "This idb-kv instance has been destroyed"
    case TransactionError(cause) => cause
    case DeleteError(cause) => cause
    case ClosedConnection => "InvalidStateError"
  }

  /** One entry of the action queue. A `Get` carries the identity of the
      promise its caller awaits; `Set` and `Delete` report through the
      batch's shared commit promise and need no identity. */
  datatype Action<K, V> = Get(id: nat, key: K) | Set(key: K, value: V) | Delete(key: K)

  /** How far a caller's promise has got: still waiting, fulfilled (with
      `None` standing for `undefined`), or rejected. */
  datatype Reply<V> = Unsettled | Resolved(value: Option<V>) | Rejected(err: Error)
}
